=== FILE: README.md ===
# Jooby router core, dependency listings and APT type names — a Dafny model

This project models four pieces of Jooby:

- **`RouterImpl`** (the `future` router). It keeps a stack of scopes (`Stack` frames). `route`, `filter`/`before`/`after`, `renderer`, `error` and `errorCode` register into that stack. `group`, `path`, `dispatch`, `detach` and `gzip` push a frame around a `Runnable` action (`newGroup`).
  - `route` builds a route from the stack: the concatenated pattern, before-filters around after-filters around the handler, with detaching, and the renderer chain. It inserts the route into the trie under its method's code, or under every code for `*`. `methodCode` numbers the HTTP methods.
  - `start` installs the root error handler and drops the stack. `errorCode` classifies a failure by its class chain. `toString` lists the routes in a padded table.
- **`RouterMatch`**, the result of a trie lookup. `value`/`pop` bind positional path variables. `key` renames them. `methodNotAllowed`, `found` and `missing` pick the route and its handler. `execute` runs the pipeline and reports a failure to `sendError`.
- **`DependencyProcessor`**, the asciidoc block that writes the Maven and Gradle listings for a comma-separated list of artifacts.
- **`TypeDefinition`** of the annotation processor:
  - `asmType`, from a source type name to an ASM type;
  - `is` and `equalType`, which match a type mirror against type names;
  - `getName(Element)`, the binary name of a nested class.

Each Java object becomes an immutable datatype, and each call becomes a function from the old state to the new one. A call that throws yields the state as it stood when the exception left, together with the exception (`Router.Step`, `Wrappers.Result`). Lambdas and `Runnable`s are symbolic:

- filters, handlers, renderers and error handlers are terms of `Pipeline`;
- a `Runnable` action is a program of registration calls (`Router.Command`).

Modules:

| module | file | models |
|---|---|---|
| `Wrappers` | wrappers.dfy | `Option` and `Result` |
| `Text` | text.dfy | the `java.lang.String` operations used (`indexOf`, `endsWith`, `replace`, regex split at `\s*,\s*`) |
| `Pipeline` | pipeline.dfy | filter chains (`Route.Filter.then`), renderer and error-handler chains, route pipeline composition |
| `Router` | router.dfy | `RouterImpl` registration as a state machine |
| `ErrorCodes` | error_codes.dfy | `errorCode(Throwable)` |
| `Listing` | listing.dfy | `RouterImpl.toString` |
| `RouterMatch` | router_match.dfy | `RouterMatch` |
| `Dependency` | dependency.dfy | `DependencyProcessor` |
| `TypeDefinition` | type_definition.dfy | `TypeDefinition` |

## Model

| member | source | states |
|---|---|---|
| Router.Init | future/src/main/java/io/jooby/internal/RouterImpl.java:86-90 | a new router has one root frame with the empty pattern, no routes, and `TO_STRING` as renderer |
| Router.MethodCode | future/src/main/java/io/jooby/internal/RouterImpl.java:305-337 | exactly the nine methods have a code, and the code of a method is its position among them, counted from 1 |
| Router.MethodCodeKnown | future/src/main/java/io/jooby/internal/RouterImpl.java:305-337 | each of the nine methods gets its position, counted from 1, as its code |
| Router.MethodCodeExact | future/src/main/java/io/jooby/internal/RouterImpl.java:305-337 | a code exists exactly for the nine methods; a code names its method back; any other method fails with `IllegalArgumentException("Unknown method: " + method)` |
| Router.InsertAll | future/src/main/java/io/jooby/internal/RouterImpl.java:203-208 | inserting a route for a list of codes maps exactly those (code, pattern) keys to it and leaves every other key as it was |
| Router.RouteOp | future/src/main/java/io/jooby/internal/RouterImpl.java:152-210 | `route` succeeds iff the stack is present and the method is `*` or a known method; it appends the built route, enters it in the table under its codes (leaving every other key to `InsertAll`'s frame), and keeps the stack, renderer, error handlers and error codes; a null stack throws NPE and an unknown method throws, both before anything changes |
| Router.RouteTable | future/src/main/java/io/jooby/internal/RouterImpl.java:203-208 | after `route`, the trie maps the method's code (every code for `*`) and the full pattern to the new route |
| Router.RouteKeepsOthers | future/src/main/java/io/jooby/internal/RouterImpl.java:205-207 | for a known method, `route` adds only the key of its code and pattern, and every other key of the table keeps its route |
| Router.FilterOp | future/src/main/java/io/jooby/internal/RouterImpl.java:107-118 | `filter`/`before`/`after` append to the innermost frame: the scope's filters grow by exactly that filter; patterns, renderers and routes do not change, the innermost frame stays detached or attached as it was, and nothing else of the router changes; a null or empty stack throws and changes nothing |
| Router.RendererOp | future/src/main/java/io/jooby/internal/RouterImpl.java:92-96 | the global renderer tries the new renderer before the previous chain, even when the stack is null (that update happens before the NPE, which changes nothing else); the innermost frame gains the renderer, its filters, pattern and detach flag are kept, and the table, routes and error registrations do not change |
| Router.ErrorHandlers | future/src/main/java/io/jooby/internal/RouterImpl.java:120-123 | an error-handler chain has at least one handler and starts with a plain one; it has several exactly when it is a `then` composition |
| Router.ErrorOp | future/src/main/java/io/jooby/internal/RouterImpl.java:120-123 | `error` sets the handler when none exists, and otherwise appends it to the existing `then` chain; nothing else of the router changes |
| Router.ErrorCodeOp | future/src/main/java/io/jooby/internal/RouterImpl.java:237-244 | `errorCode(type, status)` maps the class name to the status and keeps every other registration; nothing else of the router changes |
| Router.Start | future/src/main/java/io/jooby/internal/RouterImpl.java:219-227 | `start` installs the registered error handler, or the default one, as the root error handler and nulls the stack; a second `start` updates the handler, then throws NPE; the table, routes, renderer and error codes do not change |
| Router.GroupFrame | future/src/main/java/io/jooby/internal/RouterImpl.java:98-150 | `group` and `path` push a plain frame (with the pattern for `path`); `dispatch`, `detach` and `gzip` push a frame seeded with their filter; only `detach` marks the frame detached |
| Router.Exec | future/src/main/java/io/jooby/internal/RouterImpl.java:92-150 | a registration call keeps the stack well formed; it changes only the innermost frame, or drops the stack (`start`); a scope-opening call that returns restores the stack exactly; no call forgets a route |
| Router.NewGroup | future/src/main/java/io/jooby/internal/RouterImpl.java:284-299 | `newGroup` pushes the frame, runs the action and pops the frame, so a normal return leaves the stack as it found it; routes only grow |
| Router.Run | future/src/main/java/io/jooby/internal/RouterImpl.java:284-299 | an action runs its calls in order up to the first that throws; the outer frames are kept and routes only grow |
| Router.ScopedRoute | future/src/main/java/io/jooby/internal/RouterImpl.java:144-174 | a route declared inside a scope gets the outer pattern, then the scope's pattern, then its own; each side of its filters is the outer filters followed by the scope's own; the stack is restored afterwards |
| Router.FilterReachesRoute | future/src/main/java/io/jooby/internal/RouterImpl.java:107-118 | a filter registered in the current scope becomes the last filter of its side (before/after) for the next route, and the other side does not change |
| Router.ScopeIsolation | future/src/main/java/io/jooby/internal/RouterImpl.java:284-299 | once a scope closes, the next route is built exactly as if the scope had never been opened |
| Router.RoutePipeline | future/src/main/java/io/jooby/internal/RouterImpl.java:161-195 | a route's pipeline is one chain of its before-filters applied to one chain of its after-filters applied to the handler (no chain for an empty side); with after-filters and a detached scope or handler, it is the before-filter chain applied to a detached call whose callback chains the after-filters |
| Router.RouteRenderer | future/src/main/java/io/jooby/internal/RouterImpl.java:197-199 | a route tries its scopes' renderers latest first, then `TO_STRING` |
| Router.PrefixConcat | future/src/main/java/io/jooby/internal/RouterImpl.java:156-157 | the pattern of a stack of frames is the outer frames' pattern followed by the inner frames' pattern |
| Router.AllFiltersConcat | future/src/main/java/io/jooby/internal/RouterImpl.java:162-163 | the filters of a stack of frames are the outer frames' filters followed by the inner frames' filters |
| Router.RegisteredStatusDecides | future/src/main/java/io/jooby/internal/RouterImpl.java:237-270 | after `errorCode(type, status)`, a failure of class `type` that is not an `Err` is classified with `status` |
| ErrorCodes.FirstRegistered | future/src/main/java/io/jooby/internal/RouterImpl.java:250-259 | the class-chain walk finds the registered status of the most specific registered class, or nothing exactly when no class in the chain is registered |
| ErrorCodes.ErrorCode | future/src/main/java/io/jooby/internal/RouterImpl.java:246-270 | an `Err` keeps its own status; any other failure gets a status other than 400, 404 and 500 only when that status is registered for a class of its chain |
| ErrorCodes.ErrKeepsStatus | future/src/main/java/io/jooby/internal/RouterImpl.java:247-249 | an `Err` keeps its own status, whatever is registered |
| ErrorCodes.MostSpecificRegistered | future/src/main/java/io/jooby/internal/RouterImpl.java:250-259 | the most specific registered class decides the status of any other failure |
| ErrorCodes.Fallbacks | future/src/main/java/io/jooby/internal/RouterImpl.java:260-269 | with nothing registered in the chain: 400 iff the chain holds `IllegalArgumentException` or `NoSuchElementException`, 404 iff it holds `FileNotFoundException` but neither of those, and 500 otherwise |
| ErrorCodes.RegisteredOwnClass | future/src/main/java/io/jooby/internal/RouterImpl.java:250-259 | registering a status for a failure's own class overrides anything registered for its superclasses |
| Pipeline.MembersOfFold | future/src/main/java/io/jooby/internal/RouterImpl.java:164-174 | `reduce(Filter::then)` over a non-empty list gives a chain whose members, in order, are that list |
| Pipeline.FoldOfMembers | future/src/main/java/io/jooby/internal/RouterImpl.java:164-174 | every filter chain is the left fold of its own members |
| Pipeline.Core | future/src/main/java/io/jooby/internal/RouterImpl.java:177-195 | below all filter layers a pipeline is a call of the handler or a detached call |
| Pipeline.Side | future/src/main/java/io/jooby/internal/RouterImpl.java:164-174 | the filtered side holds only filters of that side (`Route.After` or not) and is no longer than the input |
| Pipeline.SidesPartition | future/src/main/java/io/jooby/internal/RouterImpl.java:164-174 | the before side and the after side together are a permutation of the filters |
| Pipeline.SideConcat | future/src/main/java/io/jooby/internal/RouterImpl.java:161-174 | filtering distributes over concatenation, so the outer scopes' filters keep preceding the inner ones on each side |
| Pipeline.Partition | future/src/main/java/io/jooby/internal/RouterImpl.java:161-174 | one pass over the stack's filters gives exactly the before side and the after side, in their original order |
| Pipeline.Compose | future/src/main/java/io/jooby/internal/RouterImpl.java:177-195 | with no filters, the pipeline is the handler itself |
| Pipeline.ComposeAttached | future/src/main/java/io/jooby/internal/RouterImpl.java:177-195 | unless there are after-filters and detaching applies, the pipeline is exactly two chains, the before-filters folded into one applied to the after-filters folded into one applied to the handler, leaving out a chain for an empty side |
| Pipeline.ComposeDetached | future/src/main/java/io/jooby/internal/RouterImpl.java:182-190 | with after-filters and a detached scope or handler, the pipeline is at most one chain, all the before-filters folded into one, around a detached call whose callback's members are exactly the after-filters |
| Pipeline.Attempts | future/src/main/java/io/jooby/internal/RouterImpl.java:197-199 | a renderer chain makes at least one attempt and its last resort is a plain renderer; it makes several exactly when it is a `then` composition |
| Pipeline.Reverse | future/src/main/java/io/jooby/internal/RouterImpl.java:197-199 | the reversed list has the same length, with element k taken from position length-1-k |
| Pipeline.RendererOrder | future/src/main/java/io/jooby/internal/RouterImpl.java:197-199 | `reduce(TO_STRING, (a, b) -> b.then(a))` tries the renderers latest first and `TO_STRING` last |
| Listing.Width | future/src/main/java/io/jooby/internal/RouterImpl.java:273-276 | the column width is one more than the longest method name; it is reached by some route and is 0 when there are no routes |
| Listing.Pad | future/src/main/java/io/jooby/internal/RouterImpl.java:280 | `%-Ns` left-justifies: the text followed by spaces up to the width, never truncated |
| Listing.ToString | future/src/main/java/io/jooby/internal/RouterImpl.java:272-282 | `toString` throws on an empty router (`substring(1)` of ""); otherwise it returns the rows joined by newlines |
| Listing.BufferJoin | future/src/main/java/io/jooby/internal/RouterImpl.java:279-281 | the buffer is empty iff there are no routes; otherwise it is a newline followed by the rows joined by newlines |
| Listing.JoinSnoc | future/src/main/java/io/jooby/internal/RouterImpl.java:279-281 | appending one more row adds a newline and that row |
| Listing.RowParts | future/src/main/java/io/jooby/internal/RouterImpl.java:280 | a row is two spaces, the padded method, then the pattern |
| Listing.RowColumns | future/src/main/java/io/jooby/internal/RouterImpl.java:273-280 | in the listing, each method starts after the two-space indent and is followed by a space, and every pattern starts in the same column, two plus the width |
| Listing.ParseListing | future/src/main/java/io/jooby/internal/RouterImpl.java:272-282 | from the text, the listing gives back each route's method and pattern, one line per route (for methods and patterns without newlines or trailing blanks) |
| Listing.ParseRowAt | future/src/main/java/io/jooby/internal/RouterImpl.java:280 | each row reads back as its route's method and pattern |
| Listing.RowNoNewline | future/src/main/java/io/jooby/internal/RouterImpl.java:280 | a row of a method and pattern without newlines has no newline |
| Listing.TrimPad | future/src/main/java/io/jooby/internal/RouterImpl.java:280 | trimming the padding recovers a method name that does not end in blanks |
| RouterMatch.Fresh | jooby/src/main/java/io/jooby/internal/RouterMatch.java:33-39 | a new match is unmatched, has no route and no handler, and its variables are the shared `EMPTY_MAP` |
| RouterMatch.Find | jooby/src/main/java/io/jooby/internal/RouterMatch.java:37 | a map lookup gives the first entry with that key, or -1 iff the key is absent |
| RouterMatch.Put | jooby/src/main/java/io/jooby/internal/RouterMatch.java:43-51 | `LinkedHashMap.put` replaces the value of a present key in place and appends an absent one; keys stay unique |
| RouterMatch.Remove | jooby/src/main/java/io/jooby/internal/RouterMatch.java:43-55 | `remove` drops the key's entry and returns its value, or returns null and changes nothing when the key is absent; afterwards the key is absent |
| RouterMatch.Value | jooby/src/main/java/io/jooby/internal/RouterMatch.java:47-52 | `value` replaces the shared empty map by a fresh one and appends the value under the next position |
| RouterMatch.Pop | jooby/src/main/java/io/jooby/internal/RouterMatch.java:54-56 | `pop` on the shared empty map does nothing (remove of an absent key); route, handler and matched flag are kept |
| RouterMatch.ValuePop | jooby/src/main/java/io/jooby/internal/RouterMatch.java:47-56 | `pop` undoes `value` |
| RouterMatch.ValueStep | jooby/src/main/java/io/jooby/internal/RouterMatch.java:47-52 | on positional bindings, `value` appends exactly one binding and keeps them positional |
| RouterMatch.ValuesPositional | jooby/src/main/java/io/jooby/internal/RouterMatch.java:47-52 | successive `value` calls bind positions 0, 1, … to the values in order, after any earlier bindings |
| RouterMatch.Rename | jooby/src/main/java/io/jooby/internal/RouterMatch.java:41-45 | `key` on the shared empty map throws iff there are keys (the `put` is unsupported); with one distinct key per positional binding, every value ends up under its name, in order |
| RouterMatch.RenameStep | jooby/src/main/java/io/jooby/internal/RouterMatch.java:42-44 | one loop step moves the front positional binding to the back under its name |
| RouterMatch.MethodNotAllowed | jooby/src/main/java/io/jooby/internal/RouterMatch.java:58-60 | `methodNotAllowed` sets the 405 handler and nothing else |
| RouterMatch.Found | jooby/src/main/java/io/jooby/internal/RouterMatch.java:74-78 | `found` sets the route and marks the match, keeping the variables and the handler |
| RouterMatch.Missing | jooby/src/main/java/io/jooby/internal/RouterMatch.java:90-99 | `missing` builds a route with the request's method, path and renderer, and keeps the matched flag, variables and handler |
| RouterMatch.MissPrecedence | jooby/src/main/java/io/jooby/internal/RouterMatch.java:90-99 | the missing route's handler is 405 iff `methodNotAllowed` was called; otherwise it is the favicon handler iff the path ends in `/favicon.ico`, and `NOT_FOUND` otherwise |
| RouterMatch.MatchedIffFound | jooby/src/main/java/io/jooby/internal/RouterMatch.java:62-78 | a match reports `matches()` exactly when `found` was called on it at some point |
| RouterMatch.Execute | jooby/src/main/java/io/jooby/internal/RouterMatch.java:80-88 | `execute` first sets the path map, then the route; it sends an error exactly when the pipeline throws or there is no route (NPE), with that exception |
| RouterMatch.ErrorSentOnce | jooby/src/main/java/io/jooby/internal/RouterMatch.java:80-88 | `execute` sends at most one error, and exactly one iff the pipeline fails |
| Text.Split | docs/src/main/java/io/jooby/adoc/DependencyProcessor.java:29 | splitting at a separator gives at least one part, no part holds the separator, and joining the parts gives the text back |
| Text.SplitJoin | docs/src/main/java/io/jooby/adoc/DependencyProcessor.java:29 | splitting the join of separator-free parts gives the parts back |
| Dependency.SplitArtifacts | docs/src/main/java/io/jooby/adoc/DependencyProcessor.java:29 | without a comma the text is the only field; with one, no field holds a comma, there are at most as many fields as commas plus one, and the last field is not empty |
| Dependency.SplitArtifactsFields | docs/src/main/java/io/jooby/adoc/DependencyProcessor.java:29 | with a comma, field k of the result is the k-th comma-separated field with the blanks next to its commas removed (and none removed on a side without a comma); every field past the last kept one was blank |
| Dependency.PaddedRoundTrip | docs/src/main/java/io/jooby/adoc/DependencyProcessor.java:29 | items without commas or edge blanks, written with any blanks around the separating commas, split back to exactly those items (a non-empty last item when there are several) |
| Dependency.TrimmedField | docs/src/main/java/io/jooby/adoc/DependencyProcessor.java:29 | trimming a field leaves it as blanks, the kept part, blanks, with blanks only on comma sides and no blank at a trimmed edge of the kept part |
| Dependency.SplitJoinRoundTrip | docs/src/main/java/io/jooby/adoc/DependencyProcessor.java:29 | splitting a list of plain artifact names joined by commas gives the list back |
| Dependency.ArtifactId | docs/src/main/java/io/jooby/adoc/DependencyProcessor.java:82-85 | an artifact with a note (a first `:` that is not at index 0) yields the text before that colon; any other artifact yields itself |
| Dependency.Comment | docs/src/main/java/io/jooby/adoc/DependencyProcessor.java:87-90 | a comment exists iff the artifact carries a note; it is prefix, a space, the note and suffix; the artifact id, `:` and the note rebuild the artifact |
| Dependency.Maven | docs/src/main/java/io/jooby/adoc/DependencyProcessor.java:92-114 | `maven` writes the Maven header, one block per artifact (its optional comment line, then its `<dependency>` element) with blank lines between them, and the closing fence |
| Dependency.Gradle | docs/src/main/java/io/jooby/adoc/DependencyProcessor.java:61-80 | `gradle` writes the Gradle header, one block per artifact (its optional comment line, then its `implementation` line) with blank lines between them, and the closing fence |
| Dependency.Emit | docs/src/main/java/io/jooby/adoc/DependencyProcessor.java:96-113 | the loop shared by `maven` and `gradle` gives the header, each block behind a blank line except the first, then the fence |
| Dependency.MavenOneDependencyPerArtifact | docs/src/main/java/io/jooby/adoc/DependencyProcessor.java:92-114 | the Maven listing has exactly one `<dependency>` element per artifact |
| Dependency.GradleOneImplementationPerArtifact | docs/src/main/java/io/jooby/adoc/DependencyProcessor.java:61-80 | the Gradle listing has exactly one `implementation` line per artifact |
| Dependency.MavenNoBlankBeforeFirst | docs/src/main/java/io/jooby/adoc/DependencyProcessor.java:96-101 | no blank line follows the header: the first artifact's block starts right after it |
| Dependency.SeparatedStartsWithFirst | docs/src/main/java/io/jooby/adoc/DependencyProcessor.java:96-99 | the separated blocks start with the first block's first line |
| Dependency.Process | docs/src/main/java/io/jooby/adoc/DependencyProcessor.java:26-51 | `process` fails with `">>" + parentId` iff the `artifactId` attribute is missing; otherwise it gives the Maven listing, a blank line, the Gradle listing and a blank line |
| TypeDefinition.PrimitiveNamed | modules/jooby-apt/src/main/java/io/jooby/internal/apt/TypeDefinition.java:153-187 | a keyword names the primitive it spells, and nothing else names a primitive |
| TypeDefinition.AsmTypeOf | modules/jooby-apt/src/main/java/io/jooby/internal/apt/TypeDefinition.java:152-205 | `asmType` gives a primitive type exactly for the nine primitive keywords, and then the primitive that keyword names |
| TypeDefinition.StripDims | modules/jooby-apt/src/main/java/io/jooby/internal/apt/TypeDefinition.java:195-198 | stripping `[]` suffixes gives an element without one, and the element followed by the stripped dimensions is the name |
| TypeDefinition.ArrayOfShape | modules/jooby-apt/src/main/java/io/jooby/internal/apt/TypeDefinition.java:193-203 | the default branch writes one `[` per dimension, then `L`, the element with `/` for `.`, and `;` for an array; it writes only the slashed element otherwise |
| TypeDefinition.AsmTypeOfPrimitive | modules/jooby-apt/src/main/java/io/jooby/internal/apt/TypeDefinition.java:153-187 | a primitive keyword maps to its primitive ASM type |
| TypeDefinition.AsmTypeOfPrimitiveArray | modules/jooby-apt/src/main/java/io/jooby/internal/apt/TypeDefinition.java:156-187 | a one-dimensional primitive array maps to `[` and its descriptor character |
| TypeDefinition.AsmTypeOfOther | modules/jooby-apt/src/main/java/io/jooby/internal/apt/TypeDefinition.java:188-203 | every other name, `String` and `String[]` included, gets the object type of the default branch |
| TypeDefinition.ArrayOfRoundTrip | modules/jooby-apt/src/main/java/io/jooby/internal/apt/TypeDefinition.java:193-203 | reading the internal name of the default branch back gives the source name |
| TypeDefinition.DefaultRoundTrip | modules/jooby-apt/src/main/java/io/jooby/internal/apt/TypeDefinition.java:193-203 | the default branch, read back, gives every source type name back |
| TypeDefinition.AsmTypeRoundTrip | modules/jooby-apt/src/main/java/io/jooby/internal/apt/TypeDefinition.java:152-205 | `asmType`, read back, gives every source type name back |
| TypeDefinition.StringEntry | modules/jooby-apt/src/main/java/io/jooby/internal/apt/TypeDefinition.java:188-189 | `java.lang.String` gets the internal name `java/lang/String` |
| TypeDefinition.StringArrayEntry | modules/jooby-apt/src/main/java/io/jooby/internal/apt/TypeDefinition.java:190-191 | `java.lang.String[]` gets the internal name `[Ljava/lang/String;` |
| TypeDefinition.MultiDimPrimitiveArrayAsWritten | modules/jooby-apt/src/main/java/io/jooby/internal/apt/TypeDefinition.java:192-203 | `int[][]` falls to the default branch and gets `[[Lint;`: an array of arrays of a class called `int`, not of the primitive `int` |
| TypeDefinition.JvmTypeWellFormed | modules/jooby-apt/src/main/java/io/jooby/internal/apt/TypeDefinition.java:152-205 | the corrected mapping gives every array a descriptor that names its element as the source does: a BaseType character for a primitive, `L` + a class name that is not a keyword + `;` otherwise |
| TypeDefinition.PrimitiveMultiArrayWellFormed | modules/jooby-apt/src/main/java/io/jooby/internal/apt/TypeDefinition.java:156-187 | a `[` per dimension followed by a primitive's descriptor character is well formed |
| TypeDefinition.DefaultWellFormed | modules/jooby-apt/src/main/java/io/jooby/internal/apt/TypeDefinition.java:192-203 | the default branch names the element correctly for every name except a multi-dimensional primitive array, where it writes the keyword as a class name |
| TypeDefinition.JvmTypeRoundTrip | modules/jooby-apt/src/main/java/io/jooby/internal/apt/TypeDefinition.java:152-205 | the corrected mapping still reads back to the source name |
| TypeDefinition.EqualType | modules/jooby-apt/src/main/java/io/jooby/internal/apt/TypeDefinition.java:105-117 | a type equals a name iff its erasure is that name, or the name is `java.lang.Enum` and the type is an enum; it throws NPE iff it must ask the kind of a missing element |
| TypeDefinition.Is | modules/jooby-apt/src/main/java/io/jooby/internal/apt/TypeDefinition.java:86-103 | `is` needs the raw type to match; for a declared type with argument names, the argument counts must agree and every argument must match its name; an exception comes from one of the comparisons |
| TypeDefinition.GetName | modules/jooby-apt/src/main/java/io/jooby/internal/apt/TypeDefinition.java:216-222 | inside a class, the name ends in `$` and the simple name; otherwise it is the element's own text |
| TypeDefinition.DollarPerNesting | modules/jooby-apt/src/main/java/io/jooby/internal/apt/TypeDefinition.java:216-222 | the binary name has one `$` per level of class nesting |
| TypeDefinition.BinaryName | modules/jooby-apt/src/main/java/io/jooby/internal/apt/TypeDefinition.java:216-222 | walking the enclosing chain outwards gives the same name as the recursion |

## Left out

- The `$Chi` trie is not part of this model. It is an abstract map from (method code, pattern) to route, where the last insert for a key wins. Matching a path against it (`match`) is left out too.
- The bodies of the `dispatch`, `detach` and `gzip` filters and of a `DetachedHandler` are symbolic. So are the `then` combinators of filters, renderers and error handlers, and `asRunnable`. Only the order in which they are composed is modelled.
- `Router.RouteOp`: the route stores the composed pipeline with `pipeline.root()` taken as the identity, since `Route.Handler.root` is not part of this model. `Router.Start` keeps the logger and the `RootErrorHandlerImpl` wrapping only as the error handler they wrap.
- `Router.METHODS` is not part of this model. It is taken to be the nine methods of `methodCode`, in the same order.
- `ErrorCodes.ErrorCode`: a failure is its list of canonical class names, most specific first. Anonymous classes, whose canonical name is null, are not modelled. A null `errorCodes` map and an empty one classify alike, so the model starts with the empty map.
- `Router.RouteOp`: the detach flag consulted is that of the innermost frame, as in the source. The handler's `DetachedHandler` type is a flag of the handler term.
- `RouterMatch.Missing`: the fields of the missing route other than method, path, handler and renderer (parameter list, return type, attributes) are left out. The renderer is an opaque identifier.
- `RouterMatch.Execute`: the route's pipeline is a parameter giving the exception it throws, if any. The context calls are recorded as effects.
- `Dependency.Process`: `parseContent` is left out, so the result is the list of lines handed to it. `Dependencies.get` is a total catalog parameter; its failure on an unknown artifact is not modelled.
- `is(Class...)` and `typeName(Class)` are left out because they reflect on runtime classes. `getName(TypeMirror)`, `toJvmType` and the other accessors of `TypeDefinition` are left out too.
- `TypeDefinition.EqualType`: a `TypeMirror` is its erasure text, the kind of its element, whether it is declared, and its type arguments. Erasure and unwrapping are done beforehand.
- `Router.Exec`: an action is a list of registration calls, none of which can catch an exception, so "a scope that returns restores the stack" holds. In the source a `Runnable` can catch a throw from a nested scope. Because `newGroup` has no `finally` (future/src/main/java/io/jooby/internal/RouterImpl.java:289-299), the nested frame then stays pushed, and the enclosing scope's `removeLast` pops that frame instead of its own. Its frame, pattern included, then stays on the stack for every later route. The model does not express that case.
- `Router.NewGroup`: models a throw that escapes the action, which leaves the frame pushed. A throw caught inside the action, which makes `removeLast` pop the nested frame, is not expressible (see `Router.Exec`).
- `Router.Run`: runs the calls up to the first throw; a `Runnable` that catches and carries on is not expressible (see `Router.Exec`).
- `Router.ScopeIsolation`: holds because actions cannot catch; after a caught nested throw the source leaves the scope's frame behind (see `Router.Exec`).
- Concurrency, executors and I/O are outside the model.

## Findings

| source | as written | input that shows it | evidently intended | confidence | as-written member | corrected member |
|---|---|---|---|---|---|---|
| modules/jooby-apt/src/main/java/io/jooby/internal/apt/TypeDefinition.java:192-203 | a multi-dimensional primitive array reaches the default branch, which writes `L` + keyword + `;` | `int[][]` gives `[[Lint;` | `[[I`, as section 4.3.2 of the Java Virtual Machine Specification writes a primitive array's component | not executed | TypeDefinition.MultiDimPrimitiveArrayAsWritten | TypeDefinition.JvmTypeWellFormed |

=== FILE: dependency.dfy ===
/** The `dependency` block macro of the documentation build
    (docs/src/main/java/io/jooby/adoc/DependencyProcessor.java): from the
    `artifactId`, `groupId` and `version` attributes of a block it emits an
    AsciiDoc Maven listing followed by a Gradle listing.  The catalog that
    resolves a missing group or version (`Dependencies.get`) is a parameter, and
    the hand-off of the lines to Asciidoctor (`parseContent`) is left out: the
    model returns the lines. */
module Dependency {
  import opened Wrappers
  import opened Text

  /** What `Dependencies.get(artifactId)` answers: the group and version. */
  datatype Coordinates = Coordinates(groupId: String, version: String)

  /** The lookup `Dependencies.get`, taken as given. */
  type Catalog = String -> Coordinates

  /** The block attributes; `None` is an attribute that is absent (null). */
  datatype Attributes = Attributes(artifactId: Option<String>, groupId: Option<String>, version: Option<String>)

  /** `process` rethrows any failure as an IllegalStateException whose message is
      ">>" followed by the id of the parent node. */
  datatype ProcessError = IllegalState(message: String)

  // ---------------------------------------------------------------------
  // Splitting the `artifactId` attribute with the regex `\s*,\s*`.

  /** The regex `\s*,\s*` also swallows the white space next to each comma:
      a field loses its leading blanks when a comma precedes it (`atStart`)
      and its trailing blanks when a comma follows it (`atEnd`). */
  function TrimField(field: String, atStart: bool, atEnd: bool): String {
    var a := if atStart then TrimStart(field) else field;
    if atEnd then TrimEnd(a) else a
  }

  /** Every field but the first touches a comma at its start, every field but
      the last at its end. */
  function TrimFields(f: seq<String>): (r: seq<String>)
    ensures |r| == |f|
  {
    seq(|f|, k requires 0 <= k < |f| => TrimField(f[k], k > 0, k < |f| - 1))
  }

  /** `String.split` with no limit drops the trailing empty strings. */
  function DropTrailingEmpty(p: seq<String>): (r: seq<String>)
    ensures r <= p
    ensures |r| == 0 || r[|r| - 1] != []
    ensures forall k :: |r| <= k < |p| ==> p[k] == []
  {
    if |p| == 0 || p[|p| - 1] != [] then p else DropTrailingEmpty(p[..|p| - 1])
  }

  /** `s.split("\\s*,\\s*")`: when no comma occurs the result is `s` itself,
      even when `s` is empty; otherwise the trimmed fields without the trailing
      empty ones. */
  function SplitArtifacts(s: String): (r: seq<String>)
    ensures ',' !in s ==> r == [s]
    ensures forall k :: 0 <= k < |r| ==> ',' !in r[k]
    ensures ',' in s ==> |r| <= |Split(s, ',')| && (|r| == 0 || r[|r| - 1] != [])
  {
    var f := Split(s, ',');
    if |f| == 1 then
      assert s == f[0];
      [s]
    else
      var t := TrimFields(f);
      forall k | 0 <= k < |t| ensures ',' !in t[k] {
        assert t[k] == TrimField(f[k], k > 0, k < |f| - 1);
        TrimFieldNoComma(f[k], k > 0, k < |f| - 1);
      }
      assert ',' in s by {
        assert Join(f, [',']) == f[0] + [','] + Join(f[1..], [',']);
        assert s[|f[0]|] == ',';
      }
      DropTrailingEmpty(t)
  }

  /** Nothing but `\s` characters. */
  predicate AllSpace(s: String) {
    forall i :: 0 <= i < |s| ==> IsSpace(s[i])
  }

  /** `item` is what remains of `field` once the blanks on its comma sides
      are gone, found at index `i`: `field` is blanks, `item`, blanks, with no
      blanks on a side that touches no comma, and `item` does not begin or end
      with a blank on a side where blanks were removed. */
  predicate TrimmedAt(field: String, item: String, i: int, atStart: bool, atEnd: bool) {
    && 0 <= i && i + |item| <= |field| && field[i..i + |item|] == item
    && AllSpace(field[..i]) && AllSpace(field[i + |item|..])
    && (!atStart ==> i == 0) && (!atEnd ==> i + |item| == |field|)
    && (atStart && |item| > 0 ==> !IsSpace(item[0]))
    && (atEnd && |item| > 0 ==> !IsSpace(item[|item| - 1]))
  }

  ghost predicate Trimmed(field: String, item: String, atStart: bool, atEnd: bool) {
    exists i :: TrimmedAt(field, item, i, atStart, atEnd)
  }

  /** The blanks `TrimStart` drops. */
  lemma TrimStartSplit(s: String)
    ensures var r := TrimStart(s); var i := |s| - |r|; r == s[i..] && AllSpace(s[..i])
  {
    var i := |s| - |TrimStart(s)|;
    forall j | 0 <= j < i ensures IsSpace(s[..i][j]) {
      assert s[..i][j] == s[j];
    }
  }

  /** The blanks `TrimEnd` drops. */
  lemma TrimEndSplit(s: String)
    ensures var r := TrimEnd(s); r == s[..|r|] && AllSpace(s[|r|..])
  {
    var n := |TrimEnd(s)|;
    forall j | 0 <= j < |s| - n ensures IsSpace(s[n..][j]) {
      assert s[n..][j] == s[n + j];
    }
  }

  /** A field cut into blanks, `a`'s kept prefix `item`, and blanks. */
  lemma TrimmedAtIntro(field: String, a: String, item: String, i: int, atStart: bool, atEnd: bool)
    requires 0 <= i <= |field| && a == field[i..] && AllSpace(field[..i])
    requires |item| <= |a| && item == a[..|item|] && AllSpace(a[|item|..])
    requires !atStart ==> i == 0
    requires !atEnd ==> item == a
    requires atStart && |item| > 0 ==> !IsSpace(a[0])
    requires atEnd && |item| > 0 ==> !IsSpace(item[|item| - 1])
    ensures TrimmedAt(field, item, i, atStart, atEnd)
  {
    assert field[i..i + |item|] == item;
    assert field[i + |item|..] == a[|item|..];
    if |item| > 0 {
      assert item[0] == a[0];
    }
  }

  lemma TrimmedField(field: String, atStart: bool, atEnd: bool)
    ensures Trimmed(field, TrimField(field, atStart, atEnd), atStart, atEnd)
  {
    var a := if atStart then TrimStart(field) else field;
    var i := |field| - |a|;
    if atStart {
      TrimStartSplit(field);
    } else {
      assert field[..0] == [];
    }
    var item := TrimField(field, atStart, atEnd);
    if atEnd {
      TrimEndSplit(a);
    } else {
      assert a[|a|..] == [];
    }
    TrimmedAtIntro(field, a, item, i, atStart, atEnd);
  }

  /** Trimming keeps a slice of the field, so it adds no comma. */
  lemma TrimFieldNoComma(field: String, atStart: bool, atEnd: bool)
    requires ',' !in field
    ensures ',' !in TrimField(field, atStart, atEnd)
  {
    var a := if atStart then TrimStart(field) else field;
    assert a == field[|field| - |a|..];
    assert ',' !in a;
  }

  /** A trimmed field with nothing left was blank throughout. */
  lemma TrimmedEmpty(field: String, atStart: bool, atEnd: bool)
    requires Trimmed(field, [], atStart, atEnd)
    ensures AllSpace(field)
  {
    var i :| TrimmedAt(field, [], i, atStart, atEnd);
    forall j | 0 <= j < |field| ensures IsSpace(field[j]) {
      if j < i {
        assert field[..i][j] == field[j];
      } else {
        assert field[i..][j - i] == field[j];
      }
    }
  }

  /** With a comma there are at least two fields, and the split trims them and
      drops the trailing empty ones. */
  lemma SplitArtifactsOfComma(s: String)
    requires ',' in s
    ensures |Split(s, ',')| >= 2
    ensures SplitArtifacts(s) == DropTrailingEmpty(TrimFields(Split(s, ',')))
  {
    var f := Split(s, ',');
    if |f| == 1 {
      assert false;
    }
  }

  /** The trimmed fields up to the last that keeps something; every field
      after it was blank. */
  lemma KeptFields(f: seq<String>)
    requires |f| >= 2
    ensures var r := DropTrailingEmpty(TrimFields(f));
      && (forall k :: 0 <= k < |r| ==> Trimmed(f[k], r[k], k > 0, k < |f| - 1))
      && (forall k :: |r| <= k < |f| ==> AllSpace(f[k]))
  {
    var t := TrimFields(f);
    var r := DropTrailingEmpty(t);
    forall k | 0 <= k < |r| ensures Trimmed(f[k], r[k], k > 0, k < |f| - 1) {
      assert r[k] == t[k] == TrimField(f[k], k > 0, k < |f| - 1);
      TrimmedField(f[k], k > 0, k < |f| - 1);
    }
    forall k | |r| <= k < |f| ensures AllSpace(f[k]) {
      assert t[k] == [] == TrimField(f[k], k > 0, k < |f| - 1);
      TrimmedField(f[k], k > 0, k < |f| - 1);
      TrimmedEmpty(f[k], k > 0, k < |f| - 1);
    }
  }

  /** What the split keeps when a comma occurs: the fields between the commas
      with the blanks around each comma removed, up to the last field that
      keeps something; every field after it was blank. */
  lemma SplitArtifactsFields(s: String)
    requires ',' in s
    ensures var f := Split(s, ','); var r := SplitArtifacts(s);
      && |f| >= 2 && |r| <= |f| && (|r| == 0 || r[|r| - 1] != [])
      && (forall k :: 0 <= k < |r| ==> Trimmed(f[k], r[k], k > 0, k < |f| - 1))
      && (forall k :: |r| <= k < |f| ==> AllSpace(f[k]))
  {
    SplitArtifactsOfComma(s);
    KeptFields(Split(s, ','));
  }

  /** An artifact list item that survives a join and a split unchanged. */
  predicate PlainItem(a: String) {
    ',' !in a && (|a| > 0 ==> !IsSpace(a[0]) && !IsSpace(a[|a| - 1]))
  }

  lemma PlainTrim(a: String)
    requires PlainItem(a)
    ensures TrimStart(a) == a && TrimEnd(a) == a
  {
  }

  lemma TrimPlainFields(parts: seq<String>)
    requires forall k :: 0 <= k < |parts| ==> PlainItem(parts[k])
    ensures TrimFields(parts) == parts
  {
    var t := TrimFields(parts);
    forall k | 0 <= k < |parts| ensures t[k] == parts[k] {
      PlainTrim(parts[k]);
    }
  }

  /** Writing the artifacts comma separated and splitting them again gives them back. */
  lemma SplitJoinRoundTrip(parts: seq<String>)
    requires |parts| >= 1
    requires forall k :: 0 <= k < |parts| ==> PlainItem(parts[k])
    requires |parts| > 1 ==> parts[|parts| - 1] != []
    ensures SplitArtifacts(Join(parts, [','])) == parts
  {
    SplitJoin(parts, ',');
    if |parts| > 1 {
      TrimPlainFields(parts);
    }
  }

  /** Blanks before an item that does not start with a blank are trimmed away. */
  lemma {:induction false} TrimStartPad(pre: String, x: String)
    requires AllSpace(pre) && (|x| == 0 || !IsSpace(x[0]))
    ensures TrimStart(pre + x) == x
  {
    if |pre| == 0 {
      assert pre + x == x;
    } else {
      assert (pre + x)[1..] == pre[1..] + x;
      TrimStartPad(pre[1..], x);
    }
  }

  /** Blanks after an item that does not end with a blank are trimmed away. */
  lemma {:induction false} TrimEndPad(x: String, post: String)
    requires AllSpace(post) && (|x| == 0 || !IsSpace(x[|x| - 1]))
    ensures TrimEnd(x + post) == x
  {
    if |post| == 0 {
      assert x + post == x;
    } else {
      assert (x + post)[..|x + post| - 1] == x + post[..|post| - 1];
      TrimEndPad(x, post[..|post| - 1]);
    }
  }

  /** Blanks around a plain item lose their leading part to `TrimStart`; a
      blank field loses everything. */
  lemma PaddedStart(pre: String, item: String, post: String)
    requires AllSpace(pre) && AllSpace(post) && PlainItem(item)
    ensures TrimStart(pre + item + post) == if |item| > 0 then item + post else []
  {
    if |item| > 0 {
      assert pre + item + post == pre + (item + post);
      TrimStartPad(pre, item + post);
    } else {
      assert pre + item + post == (pre + post) + [];
      assert AllSpace(pre + post) by {
        forall i | 0 <= i < |pre + post| ensures IsSpace((pre + post)[i]) {
          if i >= |pre| {
            assert (pre + post)[i] == post[i - |pre|];
          }
        }
      }
      TrimStartPad(pre + post, []);
    }
  }

  /** An item with blanks only on its comma sides trims back to the item. */
  lemma PaddedField(pre: String, item: String, post: String, atStart: bool, atEnd: bool)
    requires AllSpace(pre) && AllSpace(post) && PlainItem(item)
    requires !atStart ==> pre == []
    requires !atEnd ==> post == []
    ensures TrimField(pre + item + post, atStart, atEnd) == item
  {
    if atStart {
      PaddedStart(pre, item, post);
      if |item| > 0 && atEnd {
        TrimEndPad(item, post);
      } else if |item| > 0 {
        assert item + post == item;
      }
    } else {
      assert pre + item + post == item + post;
      if atEnd {
        TrimEndPad(item, post);
      } else {
        assert item + post == item;
      }
    }
  }

  /** The round trip for the lists writers actually type: items separated by
      commas with any blanks around the commas split back to the items. */
  lemma PaddedRoundTrip(parts: seq<String>, pre: seq<String>, post: seq<String>)
    requires |parts| >= 1 && |pre| == |parts| && |post| == |parts|
    requires forall k :: 0 <= k < |parts| ==> PlainItem(parts[k]) && AllSpace(pre[k]) && AllSpace(post[k])
    requires pre[0] == [] && post[|parts| - 1] == []
    requires |parts| > 1 ==> parts[|parts| - 1] != []
    ensures SplitArtifacts(Join(seq(|parts|, k requires 0 <= k < |parts| => pre[k] + parts[k] + post[k]), [','])) == parts
  {
    var padded := seq(|parts|, k requires 0 <= k < |parts| => pre[k] + parts[k] + post[k]);
    PaddedNoComma(padded, parts, pre, post);
    SplitJoin(padded, ',');
    if |parts| == 1 {
      assert padded[0] == parts[0];
    } else {
      JoinHasComma(padded);
      SplitArtifactsOfComma(Join(padded, [',']));
      PaddedTrim(padded, parts, pre, post);
    }
  }

  lemma PaddedNoComma(padded: seq<String>, parts: seq<String>, pre: seq<String>, post: seq<String>)
    requires |pre| == |parts| && |post| == |parts| && |padded| == |parts|
    requires forall k :: 0 <= k < |parts| ==> PlainItem(parts[k]) && AllSpace(pre[k]) && AllSpace(post[k])
    requires forall k :: 0 <= k < |parts| ==> padded[k] == pre[k] + parts[k] + post[k]
    ensures forall k :: 0 <= k < |padded| ==> ',' !in padded[k]
  {
    forall k | 0 <= k < |padded| ensures ',' !in padded[k] {
      assert ',' !in pre[k] && ',' !in post[k];
    }
  }

  lemma JoinHasComma(parts: seq<String>)
    requires |parts| > 1
    ensures ',' in Join(parts, [','])
  {
    var s := Join(parts, [',']);
    assert s == parts[0] + [','] + Join(parts[1..], [',']);
    assert s[|parts[0]|] == ',';
  }

  /** Trimming the padded fields gives back the items. */
  lemma PaddedTrim(padded: seq<String>, parts: seq<String>, pre: seq<String>, post: seq<String>)
    requires |parts| >= 1 && |pre| == |parts| && |post| == |parts| && |padded| == |parts|
    requires forall k :: 0 <= k < |parts| ==> PlainItem(parts[k]) && AllSpace(pre[k]) && AllSpace(post[k])
    requires forall k :: 0 <= k < |parts| ==> padded[k] == pre[k] + parts[k] + post[k]
    requires pre[0] == [] && post[|parts| - 1] == []
    ensures TrimFields(padded) == parts
  {
    var t := TrimFields(padded);
    forall k | 0 <= k < |parts| ensures t[k] == parts[k] {
      PaddedField(pre[k], parts[k], post[k], k > 0, k < |parts| - 1);
    }
  }

  // ---------------------------------------------------------------------
  // `artifactId` and `comment`

  /** The artifact carries a note when its first ':' is not its first character. */
  predicate HasNote(s: String) {
    IndexOf(s, ':') > 0
  }

  /** `artifactId(s)`: the text before the first ':' when that colon is at an
      index above 0; otherwise `s` itself. */
  function ArtifactId(s: String): (r: String)
    ensures HasNote(s) <==> ':' in s && s[0] != ':'
    ensures !HasNote(s) ==> r == s
    ensures HasNote(s) ==> 0 < |r| < |s| && r == s[..|r|] && s[|r|] == ':' && ':' !in r
  {
    var i := IndexOf(s, ':');
    if i > 0 then s[..i] else s
  }

  /** `comment(text, prefix, suffix)`: present exactly when `text` carries a
      note, and then it is the prefix, a space, the note and the suffix. */
  function Comment(text: String, prefix: String, suffix: String): (r: Option<String>)
    ensures r.Some? <==> ':' in text && text[0] != ':'
    ensures r.Some? ==> |r.value| == |prefix| + 1 + (|text| - |ArtifactId(text)| - 1) + |suffix|
    ensures r.Some? ==> r.value[..|prefix| + 1] == prefix + " "
    ensures r.Some? ==> r.value[|r.value| - |suffix|..] == suffix
    ensures r.Some? ==> ArtifactId(text) + ":" + r.value[|prefix| + 1..|r.value| - |suffix|] == text
  {
    var s := IndexOf(text, ':');
    if s > 0 then
      var v := prefix + " " + text[s + 1..] + suffix;
      assert v[|prefix| + 1..|v| - |suffix|] == text[s + 1..];
      assert text == text[..s] + ":" + text[s + 1..];
      Some(v)
    else None
  }

  /** The lines an optional comment contributes. */
  function OptionalLine(c: Option<String>): seq<String> {
    if c.Some? then [c.value] else []
  }

  /** The explicit attribute when it is set, otherwise the catalog's answer for the artifact. */
  function GroupOf(groupId: Option<String>, artifact: String, catalog: Catalog): String {
    if groupId.Some? then groupId.value else catalog(ArtifactId(artifact)).groupId
  }

  function VersionOf(version: Option<String>, artifact: String, catalog: Catalog): String {
    if version.Some? then version.value else catalog(ArtifactId(artifact)).version
  }

  // ---------------------------------------------------------------------
  // The two listings

  const MavenHeader: seq<String> := [".Maven", "[source, xml,role=\"primary\"]", "----"]
  const GradleHeader: seq<String> := [".Gradle", "[source,javascript,role=\"secondary\"]", "----"]
  const Fence: String := "----"

  /** The `<dependency>` element of one artifact. */
  function MavenElement(groupId: Option<String>, artifact: String, version: Option<String>, catalog: Catalog): seq<String> {
    ["<dependency>",
     "  <groupId>" + GroupOf(groupId, artifact, catalog) + "</groupId>",
     "  <artifactId>" + ArtifactId(artifact) + "</artifactId>",
     "  <version>" + VersionOf(version, artifact, catalog) + "</version>",
     "</dependency>"]
  }

  function MavenBlock(groupId: Option<String>, artifact: String, version: Option<String>, catalog: Catalog): seq<String> {
    OptionalLine(Comment(artifact, "<!--", "-->")) + MavenElement(groupId, artifact, version, catalog)
  }

  /** The Gradle coordinate line of one artifact. */
  function GradleLine(groupId: Option<String>, artifact: String, version: Option<String>, catalog: Catalog): String {
    "implementation '" + (GroupOf(groupId, artifact, catalog) + ":" + ArtifactId(artifact)
      + ":" + VersionOf(version, artifact, catalog) + "'")
  }

  function GradleBlock(groupId: Option<String>, artifact: String, version: Option<String>, catalog: Catalog): seq<String> {
    OptionalLine(Comment(artifact, "//", "")) + [GradleLine(groupId, artifact, version, catalog)]
  }

  function MavenBlocks(groupId: Option<String>, artifacts: seq<String>, version: Option<String>, catalog: Catalog): (r: seq<seq<String>>)
    ensures |r| == |artifacts|
  {
    seq(|artifacts|, i requires 0 <= i < |artifacts| => MavenBlock(groupId, artifacts[i], version, catalog))
  }

  function GradleBlocks(groupId: Option<String>, artifacts: seq<String>, version: Option<String>, catalog: Catalog): (r: seq<seq<String>>)
    ensures |r| == |artifacts|
  {
    seq(|artifacts|, i requires 0 <= i < |artifacts| => GradleBlock(groupId, artifacts[i], version, catalog))
  }

  /** Blocks one after another with a blank line between consecutive ones. */
  function Separated(blocks: seq<seq<String>>): seq<String> {
    if |blocks| == 0 then []
    else if |blocks| == 1 then blocks[0]
    else Separated(blocks[..|blocks| - 1]) + [""] + blocks[|blocks| - 1]
  }

  /** Appending one more block adds a blank line first unless it is the first block. */
  lemma SeparatedSnoc(blocks: seq<seq<String>>, i: nat)
    requires i < |blocks|
    ensures Separated(blocks[..i + 1]) == Separated(blocks[..i]) + (if i > 0 then [""] else []) + blocks[i]
  {
    var b := blocks[..i + 1];
    assert b[..|b| - 1] == blocks[..i];
    assert b[|b| - 1] == blocks[i];
  }

  /** A listing: its header, the separated blocks, the closing fence. */
  function Listing(header: seq<String>, blocks: seq<seq<String>>): seq<String> {
    header + Separated(blocks) + [Fence]
  }

  /** The loop shared by `maven` and `gradle`: the header, then for each
      artifact a blank line unless it is the first and the artifact's block,
      then the closing fence. */
  method Emit(header: seq<String>, blocks: seq<seq<String>>) returns (lines: seq<String>)
    ensures lines == Listing(header, blocks)
  {
    lines := header;
    var i := 0;
    while i < |blocks|
      invariant 0 <= i <= |blocks|
      invariant lines == header + Separated(blocks[..i])
    {
      SeparatedSnoc(blocks, i);
      if i > 0 {
        lines := lines + [""];
      }
      lines := lines + blocks[i];
      i := i + 1;
    }
    assert blocks[..i] == blocks;
    lines := lines + [Fence];
  }

  /** `maven(groupId, artifactId, version, lines)`: the loop of the source. */
  method Maven(groupId: Option<String>, artifacts: seq<String>, version: Option<String>, catalog: Catalog)
    returns (lines: seq<String>)
    ensures lines == Listing(MavenHeader, MavenBlocks(groupId, artifacts, version, catalog))
  {
    lines := Emit(MavenHeader, MavenBlocks(groupId, artifacts, version, catalog));
  }


  /** `gradle(groupId, artifactId, version, lines)`: the loop of the source. */
  method Gradle(groupId: Option<String>, artifacts: seq<String>, version: Option<String>, catalog: Catalog)
    returns (lines: seq<String>)
    ensures lines == Listing(GradleHeader, GradleBlocks(groupId, artifacts, version, catalog))
  {
    lines := Emit(GradleHeader, GradleBlocks(groupId, artifacts, version, catalog));
  }


  // ---------------------------------------------------------------------
  // Shape of the listings

  /** The number of lines that start with `prefix`. */
  function CountPrefixed(lines: seq<String>, prefix: String): nat {
    if |lines| == 0 then 0
    else CountPrefixed(lines[..|lines| - 1], prefix) + (if prefix <= lines[|lines| - 1] then 1 else 0)
  }

  lemma {:induction false} CountPrefixedAppend(a: seq<String>, b: seq<String>, prefix: String)
    ensures CountPrefixed(a + b, prefix) == CountPrefixed(a, prefix) + CountPrefixed(b, prefix)
  {
    if |b| > 0 {
      assert (a + b)[..|a + b| - 1] == a + b[..|b| - 1];
      CountPrefixedAppend(a, b[..|b| - 1], prefix);
    } else {
      assert a + b == a;
    }
  }

  /** The blocks of all artifacts but the last, and one artifact's block on its own. */
  lemma {:induction false} SeparatedCount(blocks: seq<seq<String>>, prefix: String)
    requires prefix != [] && forall k :: 0 <= k < |blocks| ==> CountPrefixed(blocks[k], prefix) == 1
    ensures CountPrefixed(Separated(blocks), prefix) == |blocks|
  {
    if |blocks| == 1 {
    } else if |blocks| > 1 {
      var init := blocks[..|blocks| - 1];
      SeparatedCount(init, prefix);
      CountPrefixedAppend(Separated(init) + [""], blocks[|blocks| - 1], prefix);
      CountPrefixedAppend(Separated(init), [""], prefix);
      assert CountPrefixed([""], prefix) == 0 by {
        assert [""][..0] == [];
      }
    }
  }

  lemma CountSingle(line: String, prefix: String)
    ensures CountPrefixed([line], prefix) == if prefix <= line then 1 else 0
  {
    assert [line][..0] == [];
  }

  /** `prefix` is not a prefix of `line` when they differ at some position. */
  lemma DiffersAt(line: String, prefix: String, i: nat)
    requires i < |prefix| && i < |line| && prefix[i] != line[i]
    ensures CountPrefixed([line], prefix) == 0
  {
    CountSingle(line, prefix);
  }

  lemma CountComment(c: Option<String>, prefix: String, head: String, i: nat)
    requires c.Some? ==> |head| <= |c.value| && c.value[..|head|] == head
    requires i < |head| && i < |prefix| && head[i] != prefix[i]
    ensures CountPrefixed(OptionalLine(c), prefix) == 0
  {
    if c.Some? {
      assert c.value[i] == head[i];
      DiffersAt(c.value, prefix, i);
    }
  }

  lemma FiveLineCount(e: seq<String>, p: String)
    requires |e| == 5 && |p| > 1 && e[0] == p
    requires forall k :: 1 <= k < 5 ==> 1 < |e[k]| && (e[k][0] != p[0] || e[k][1] != p[1])
    ensures CountPrefixed(e, p) == 1
  {
    assert !(p <= e[1]) && !(p <= e[2]) && !(p <= e[3]) && !(p <= e[4]);
    CountSingle(p, p);
    assert e[..1] == [p];
    assert e[..2][..1] == e[..1];
    assert CountPrefixed(e[..2], p) == 1;
    assert e[..3][..2] == e[..2];
    assert CountPrefixed(e[..3], p) == 1;
    assert e[..4][..3] == e[..3];
    assert CountPrefixed(e[..4], p) == 1;
    assert e[..4] == e[..|e| - 1];
  }

  lemma MavenCommentCount(artifact: String)
    ensures CountPrefixed(OptionalLine(Comment(artifact, "<!--", "-->")), "<dependency>") == 0
  {
    CountComment(Comment(artifact, "<!--", "-->"), "<dependency>", "<!-- ", 1);
  }

  lemma MavenElementCount(groupId: Option<String>, artifact: String, version: Option<String>, catalog: Catalog)
    ensures CountPrefixed(MavenElement(groupId, artifact, version, catalog), "<dependency>") == 1
  {
    var e := MavenElement(groupId, artifact, version, catalog);
    assert e[1][0] == ' ' && e[2][0] == ' ' && e[3][0] == ' ' && e[4][1] == '/';
    FiveLineCount(e, "<dependency>");
  }

  lemma MavenBlockCount(groupId: Option<String>, artifact: String, version: Option<String>, catalog: Catalog)
    ensures CountPrefixed(MavenBlock(groupId, artifact, version, catalog), "<dependency>") == 1
  {
    MavenCommentCount(artifact);
    MavenElementCount(groupId, artifact, version, catalog);
    CountPrefixedAppend(OptionalLine(Comment(artifact, "<!--", "-->")), MavenElement(groupId, artifact, version, catalog), "<dependency>");
  }

  lemma GradleCommentCount(artifact: String)
    ensures CountPrefixed(OptionalLine(Comment(artifact, "//", "")), "implementation '") == 0
  {
    CountComment(Comment(artifact, "//", ""), "implementation '", "// ", 0);
  }

  lemma GradleLineCount(groupId: Option<String>, artifact: String, version: Option<String>, catalog: Catalog)
    ensures CountPrefixed([GradleLine(groupId, artifact, version, catalog)], "implementation '") == 1
  {
    var line := GradleLine(groupId, artifact, version, catalog);
    assert line[..|"implementation '"|] == "implementation '";
    CountSingle(line, "implementation '");
  }

  lemma GradleBlockCount(groupId: Option<String>, artifact: String, version: Option<String>, catalog: Catalog)
    ensures CountPrefixed(GradleBlock(groupId, artifact, version, catalog), "implementation '") == 1
  {
    GradleCommentCount(artifact);
    GradleLineCount(groupId, artifact, version, catalog);
    CountPrefixedAppend(OptionalLine(Comment(artifact, "//", "")), [GradleLine(groupId, artifact, version, catalog)], "implementation '");
  }

  lemma ListingCount(header: seq<String>, blocks: seq<seq<String>>, prefix: String)
    requires CountPrefixed(header, prefix) == 0 && |prefix| > 0 && prefix[0] != '-'
    requires forall k :: 0 <= k < |blocks| ==> CountPrefixed(blocks[k], prefix) == 1
    ensures CountPrefixed(Listing(header, blocks), prefix) == |blocks|
  {
    SeparatedCount(blocks, prefix);
    DiffersAt(Fence, prefix, 0);
    CountPrefixedAppend(header, Separated(blocks), prefix);
    CountPrefixedAppend(header + Separated(blocks), [Fence], prefix);
  }

  lemma HeaderCount(header: seq<String>, prefix: String)
    requires |header| == 3 && |prefix| > 0
    requires |header[0]| > 0 && header[0][0] != prefix[0]
    requires |header[1]| > 0 && header[1][0] != prefix[0]
    requires |header[2]| > 0 && header[2][0] != prefix[0]
    ensures CountPrefixed(header, prefix) == 0
  {
    DiffersAt(header[0], prefix, 0);
    DiffersAt(header[1], prefix, 0);
    DiffersAt(header[2], prefix, 0);
    assert header == [header[0]] + [header[1]] + [header[2]];
    CountPrefixedAppend([header[0]], [header[1]], prefix);
    CountPrefixedAppend([header[0]] + [header[1]], [header[2]], prefix);
  }

  /** Every Maven block opens exactly one `<dependency>` element, so the Maven
      listing holds one per artifact. */
  lemma MavenOneDependencyPerArtifact(groupId: Option<String>, artifacts: seq<String>, version: Option<String>, catalog: Catalog)
    ensures CountPrefixed(Listing(MavenHeader, MavenBlocks(groupId, artifacts, version, catalog)), "<dependency>") == |artifacts|
  {
    var blocks := MavenBlocks(groupId, artifacts, version, catalog);
    forall k | 0 <= k < |blocks| ensures CountPrefixed(blocks[k], "<dependency>") == 1 {
      MavenBlockCount(groupId, artifacts[k], version, catalog);
    }
    assert MavenHeader[0][0] == '.' && MavenHeader[1][0] == '[' && MavenHeader[2][0] == '-';
    HeaderCount(MavenHeader, "<dependency>");
    ListingCount(MavenHeader, blocks, "<dependency>");
  }

  /** The Gradle listing has exactly one `implementation` line per artifact. */
  lemma GradleOneImplementationPerArtifact(groupId: Option<String>, artifacts: seq<String>, version: Option<String>, catalog: Catalog)
    ensures CountPrefixed(Listing(GradleHeader, GradleBlocks(groupId, artifacts, version, catalog)), "implementation '") == |artifacts|
  {
    var blocks := GradleBlocks(groupId, artifacts, version, catalog);
    forall k | 0 <= k < |blocks| ensures CountPrefixed(blocks[k], "implementation '") == 1 {
      GradleBlockCount(groupId, artifacts[k], version, catalog);
    }
    HeaderCount(GradleHeader, "implementation '");
    ListingCount(GradleHeader, blocks, "implementation '");
  }

  /** A blank line separates consecutive artifacts but never precedes the first:
      the line after the header is the first artifact's comment or its
      `<dependency>` line. */
  lemma MavenNoBlankBeforeFirst(groupId: Option<String>, artifacts: seq<String>, version: Option<String>, catalog: Catalog)
    requires |artifacts| > 0
    ensures var lines := Listing(MavenHeader, MavenBlocks(groupId, artifacts, version, catalog));
      lines[3] == MavenBlock(groupId, artifacts[0], version, catalog)[0] && lines[3] != ""
  {
    var blocks := MavenBlocks(groupId, artifacts, version, catalog);
    MavenBlockFirstLine(groupId, artifacts[0], version, catalog);
    assert blocks[0] == MavenBlock(groupId, artifacts[0], version, catalog);
    SeparatedStartsWithFirst(blocks);
  }

  lemma MavenBlockFirstLine(groupId: Option<String>, artifact: String, version: Option<String>, catalog: Catalog)
    ensures |MavenBlock(groupId, artifact, version, catalog)| > 0 && MavenBlock(groupId, artifact, version, catalog)[0] != ""
  {
    var c := Comment(artifact, "<!--", "-->");
    if c.Some? {
      assert c.value[..5] == "<!-- ";
    }
  }

  lemma {:induction false} SeparatedStartsWithFirst(blocks: seq<seq<String>>)
    requires |blocks| > 0 && |blocks[0]| > 0
    ensures |Separated(blocks)| > 0 && Separated(blocks)[0] == blocks[0][0]
  {
    if |blocks| > 1 {
      SeparatedStartsWithFirst(blocks[..|blocks| - 1]);
    }
  }

  /** `process(parent, reader, attributes)`: the Maven listing, a blank line,
      the Gradle listing, a blank line.  A missing `artifactId` attribute makes
      the split throw, which `process` reports as an IllegalStateException. */
  method Process(parentId: String, attributes: Attributes, catalog: Catalog)
    returns (r: Result<seq<String>, ProcessError>)
    ensures r.Failure? <==> attributes.artifactId.None?
    ensures r.Failure? ==> r.error.message == ">>" + parentId
    ensures r.Success? ==>
      var artifacts := SplitArtifacts(attributes.artifactId.value);
      var maven := Listing(MavenHeader, MavenBlocks(attributes.groupId, artifacts, attributes.version, catalog));
      var gradle := Listing(GradleHeader, GradleBlocks(attributes.groupId, artifacts, attributes.version, catalog));
      r.value == maven + [""] + gradle + [""]
  {
    if attributes.artifactId.None? {
      return Failure(IllegalState(">>" + parentId));
    }
    var artifacts := SplitArtifacts(attributes.artifactId.value);
    var lines := Maven(attributes.groupId, artifacts, attributes.version, catalog);
    lines := lines + [""];
    var gradle := Gradle(attributes.groupId, artifacts, attributes.version, catalog);
    lines := lines + gradle;
    lines := lines + [""];
    return Success(lines);
  }
}

=== FILE: error_codes.dfy ===
/** The classification of failures into status codes done by
    `errorCode(Throwable)` in future/src/main/java/io/jooby/internal/RouterImpl.java.
    A failure is its class chain, from its own class up to (and without)
    `java.lang.Throwable`, by canonical names, plus the status code it carries
    when it is an `io.jooby.Err`. */
module ErrorCodes {

  import opened Wrappers
  import opened Text

  datatype Failure = Failure(classes: seq<String>, errStatus: Option<int>)

  /** Status codes of section 15 of RFC 9110. */
  const BadRequest := 400
  const NotFound := 404
  const ServerError := 500

  const IllegalArgument: String := "java.lang.IllegalArgumentException"
  const NoSuchElement: String := "java.util.NoSuchElementException"
  const FileNotFound: String := "java.io.FileNotFoundException"

  /** `x instanceof Err`. */
  predicate IsErr(x: Failure) {
    x.errStatus.Some?
  }

  /** The walk up the class chain: the status registered for the most
      specific class that has one. */
  function FirstRegistered(classes: seq<String>, codes: map<String, int>): (r: Option<int>)
    ensures r.None? <==> forall i :: 0 <= i < |classes| ==> classes[i] !in codes
    ensures r.Some? ==> exists i :: 0 <= i < |classes| && classes[i] in codes && codes[classes[i]] == r.value &&
                                    forall j :: 0 <= j < i ==> classes[j] !in codes
  {
    if |classes| == 0 then None
    else if classes[0] in codes then
      Some(codes[classes[0]])
    else
      var rest := FirstRegistered(classes[1..], codes);
      if rest.Some? then
        var i :| 0 <= i < |classes| - 1 && classes[1..][i] in codes && codes[classes[1..][i]] == rest.value &&
                  forall j :: 0 <= j < i ==> classes[1..][j] !in codes;
        assert classes[i + 1] in codes && codes[classes[i + 1]] == rest.value;
        assert forall j :: 0 <= j < i + 1 ==> classes[j] !in codes by {
          forall j | 0 <= j < i + 1 ensures classes[j] !in codes {
            if j > 0 {
              assert classes[j] == classes[1..][j - 1];
            }
          }
        }
        rest
      else
        assert forall i :: 1 <= i < |classes| ==> classes[i] == classes[1..][i - 1];
        rest
  }

  /** `errorCode(x)`: the status of an `Err`, else the registered status of
      the most specific registered class, else 400 for an invalid argument or
      a missing element, 404 for a missing file, and 500 otherwise. */
  function ErrorCode(x: Failure, codes: map<String, int>): (r: int)
    ensures IsErr(x) ==> r == x.errStatus.value
    ensures !IsErr(x) && r != BadRequest && r != NotFound && r != ServerError ==>
      exists i :: 0 <= i < |x.classes| && x.classes[i] in codes && codes[x.classes[i]] == r
  {
    if IsErr(x) then x.errStatus.value
    else match FirstRegistered(x.classes, codes)
      case Some(status) => status
      case None =>
        if IllegalArgument in x.classes || NoSuchElement in x.classes then BadRequest
        else if FileNotFound in x.classes then NotFound
        else ServerError
  }

  /** An `Err` keeps its own status, whatever is registered. */
  lemma ErrKeepsStatus(x: Failure, codes: map<String, int>)
    requires IsErr(x)
    ensures ErrorCode(x, codes) == x.errStatus.value
  {
  }

  /** For any other failure the registered status of the most specific
      registered class wins over the statuses of its superclasses and over
      the built-in fallbacks. */
  lemma MostSpecificRegistered(x: Failure, codes: map<String, int>, i: int)
    requires !IsErr(x) && 0 <= i < |x.classes| && x.classes[i] in codes
    requires forall j :: 0 <= j < i ==> x.classes[j] !in codes
    ensures ErrorCode(x, codes) == codes[x.classes[i]]
  {
    var r := FirstRegistered(x.classes, codes);
    var k :| 0 <= k < |x.classes| && x.classes[k] in codes && codes[x.classes[k]] == r.value &&
              forall j :: 0 <= j < k ==> x.classes[j] !in codes;
    assert k == i;
  }

  /** With nothing registered for the chain, the fallback classes decide, in
      the order 400, 404, 500. */
  lemma Fallbacks(x: Failure, codes: map<String, int>)
    requires !IsErr(x) && forall i :: 0 <= i < |x.classes| ==> x.classes[i] !in codes
    ensures ErrorCode(x, codes) == BadRequest <==> IllegalArgument in x.classes || NoSuchElement in x.classes
    ensures ErrorCode(x, codes) == NotFound <==>
      FileNotFound in x.classes && IllegalArgument !in x.classes && NoSuchElement !in x.classes
    ensures ErrorCode(x, codes) == ServerError <==>
      IllegalArgument !in x.classes && NoSuchElement !in x.classes && FileNotFound !in x.classes
  {
  }

  /** Registering a status for a failure's own class decides that failure,
      whatever was registered for the class before. */
  lemma RegisteredOwnClass(x: Failure, codes: map<String, int>, status: int)
    requires !IsErr(x) && |x.classes| > 0
    ensures ErrorCode(x, codes[x.classes[0] := status]) == status
  {
    MostSpecificRegistered(x, codes[x.classes[0] := status], 0);
  }
}

=== FILE: listing.dfy ===
/** `RouterImpl.toString` (future/src/main/java/io/jooby/internal/RouterImpl.java):
    one line per route in registration order, each indented by two spaces,
    the method left-justified in a column one wider than the longest method,
    then the pattern. */
module Listing {

  import opened Wrappers
  import opened Text
  import opened Router

  /** The column width: the longest method plus one, or 0 without routes. */
  function Width(routes: seq<Route>): (w: nat)
    ensures forall i :: 0 <= i < |routes| ==> |routes[i].verb| + 1 <= w
    ensures |routes| == 0 ==> w == 0
    ensures |routes| > 0 ==> exists i :: 0 <= i < |routes| && w == |routes[i].verb| + 1
  {
    if |routes| == 0 then 0
    else
      var w := Width(routes[..|routes| - 1]);
      var last := |routes[|routes| - 1].verb| + 1;
      assert forall i :: 0 <= i < |routes| - 1 ==> routes[i] == routes[..|routes| - 1][i];
      if last > w then last else w
  }

  /** `String.format("%-" + width + "s", s)`: `s` padded on the right with
      spaces to `width` characters, unchanged when already that long. */
  function Pad(s: String, width: nat): (r: String)
    ensures |r| == if |s| < width then width else |s|
    ensures r[..|s|] == s
    ensures forall i :: |s| <= i < |r| ==> r[i] == ' '
  {
    if |s| < width then s + Repeat(' ', width - |s|) else s
  }

  /** The line of one route. */
  function Row(rt: Route, width: nat): String {
    "  " + Pad(rt.verb, width) + rt.pattern
  }

  function Rows(routes: seq<Route>, width: nat): seq<String> {
    seq(|routes|, i requires 0 <= i < |routes| => Row(routes[i], width))
  }

  /** The buffer `toString` fills: a newline before every line. */
  function Buffer(routes: seq<Route>, width: nat): String {
    if |routes| == 0 then [] else Buffer(routes[..|routes| - 1], width) + "\n" + Row(routes[|routes| - 1], width)
  }

  /** `toString`.  `buff.substring(1)` throws on an empty buffer, so a router
      without routes has no listing. */
  method ToString(routes: seq<Route>) returns (r: Option<String>)
    ensures r.None? <==> |routes| == 0
    ensures r.Some? ==> r.value == Join(Rows(routes, Width(routes)), "\n")
  {
    var width := Width(routes);
    var buff: String := [];
    var i := 0;
    while i < |routes|
      invariant 0 <= i <= |routes|
      invariant buff == Buffer(routes[..i], width)
    {
      assert routes[..i + 1][..i] == routes[..i];
      buff := buff + "\n" + Row(routes[i], width);
      i := i + 1;
    }
    assert routes[..i] == routes;
    BufferJoin(routes, width);
    if |buff| == 0 {
      r := None;
    } else {
      r := Some(buff[1..]);
    }
  }

  /** The buffer is the lines joined by newlines, behind one more newline. */
  lemma {:induction false} BufferJoin(routes: seq<Route>, width: nat)
    ensures |routes| == 0 <==> |Buffer(routes, width)| == 0
    ensures |routes| > 0 ==> Buffer(routes, width)[0] == '\n' && Buffer(routes, width)[1..] == Join(Rows(routes, width), "\n")
  {
    if |routes| > 0 {
      var init := routes[..|routes| - 1];
      var row := Row(routes[|routes| - 1], width);
      BufferJoin(init, width);
      var b := Buffer(init, width);
      assert Buffer(routes, width) == b + "\n" + row;
      RowsSnoc(routes, width);
      if |init| == 0 {
        assert Rows(routes, width) == [row];
        NewlineStep([], row, []);
      } else {
        JoinSnoc(Rows(init, width), row);
        NewlineStep(b, row, Join(Rows(init, width), "\n"));
      }
    }
  }

  /** One more line behind a newline, on the buffer and on the joined text. */
  lemma NewlineStep(b: String, row: String, joined: String)
    requires |b| == 0 || (b[0] == '\n' && b[1..] == joined)
    ensures (b + "\n" + row)[0] == '\n'
    ensures |b| == 0 ==> (b + "\n" + row)[1..] == row
    ensures |b| > 0 ==> (b + "\n" + row)[1..] == joined + "\n" + row
  {
    if |b| > 0 {
      assert (b + "\n" + row)[1..] == b[1..] + "\n" + row;
    } else {
      assert b + "\n" + row == "\n" + row;
    }
  }

  lemma RowsSnoc(routes: seq<Route>, width: nat)
    requires |routes| > 0
    ensures Rows(routes, width) == Rows(routes[..|routes| - 1], width) + [Row(routes[|routes| - 1], width)]
  {
  }

  lemma {:induction false} JoinSnoc(parts: seq<String>, last: String)
    requires |parts| > 0
    ensures Join(parts + [last], "\n") == Join(parts, "\n") + "\n" + last
  {
    if |parts| == 1 {
      assert (parts + [last])[1..] == [last];
    } else {
      assert (parts + [last])[1..] == parts[1..] + [last];
      JoinSnoc(parts[1..], last);
    }
  }

  /** Reading a line back: the method column, trimmed, and the rest. */
  function ParseRow(row: String, width: nat): (String, String)
    requires 2 + width <= |row|
  {
    (TrimEnd(row[2..2 + width]), row[2 + width..])
  }

  /** The parts of a line: the indent, the padded method, the pattern. */
  lemma RowParts(rt: Route, width: nat)
    ensures var row := Row(rt, width);
      var p := Pad(rt.verb, width);
      |row| == 2 + |p| + |rt.pattern| && row[2..2 + |p|] == p && row[2 + |p|..] == rt.pattern
  {
    var p := Pad(rt.verb, width);
    var row := "  " + p + rt.pattern;
    assert row[2..2 + |p|] == p;
    assert row[2 + |p|..] == rt.pattern;
  }

  /** Every method sits in a column wide enough for it plus a space, and
      every pattern starts in the same column, `2 + Width(routes)`. */
  lemma RowColumns(routes: seq<Route>, i: int)
    requires 0 <= i < |routes|
    ensures var row := Row(routes[i], Width(routes));
      2 + Width(routes) <= |row| && row[2 + |routes[i].verb|] == ' ' &&
      row[2..2 + |routes[i].verb|] == routes[i].verb &&
      row[2 + Width(routes)..] == routes[i].pattern
  {
    var w := Width(routes);
    var v := routes[i].verb;
    var p := Pad(v, w);
    RowParts(routes[i], w);
    assert |p| == w;
    var row := Row(routes[i], w);
    assert row[2..2 + |p|][|v|] == row[2 + |v|];
    assert row[2..2 + |v|] == row[2..2 + |p|][..|v|];
  }

  /** The listing can be read back: split at newlines it has a line per
      route, in registration order, from which the method and the pattern
      are recovered, provided methods end in a non-space and neither methods
      nor patterns contain a newline. */
  lemma ParseListing(routes: seq<Route>, text: String)
    requires |routes| > 0 && text == Join(Rows(routes, Width(routes)), "\n")
    requires forall i :: 0 <= i < |routes| ==> '\n' !in routes[i].verb && '\n' !in routes[i].pattern
    requires forall i :: 0 <= i < |routes| ==> |routes[i].verb| == 0 || !IsSpace(routes[i].verb[|routes[i].verb| - 1])
    ensures |Split(text, '\n')| == |routes|
    ensures forall i :: 0 <= i < |routes| ==>
      2 + Width(routes) <= |Split(text, '\n')[i]| &&
      ParseRow(Split(text, '\n')[i], Width(routes)) == (routes[i].verb, routes[i].pattern)
  {
    var w := Width(routes);
    var rows := Rows(routes, w);
    forall k | 0 <= k < |rows| ensures '\n' !in rows[k] {
      RowNoNewline(routes[k], w);
    }
    SplitJoin(rows, '\n');
    forall i | 0 <= i < |routes|
      ensures 2 + w <= |rows[i]| && ParseRow(rows[i], w) == (routes[i].verb, routes[i].pattern)
    {
      ParseRowAt(routes, i);
    }
  }

  /** One line of the listing read back. */
  lemma ParseRowAt(routes: seq<Route>, i: int)
    requires 0 <= i < |routes|
    requires |routes[i].verb| == 0 || !IsSpace(routes[i].verb[|routes[i].verb| - 1])
    ensures 2 + Width(routes) <= |Row(routes[i], Width(routes))|
    ensures ParseRow(Row(routes[i], Width(routes)), Width(routes)) == (routes[i].verb, routes[i].pattern)
  {
    RowParts(routes[i], Width(routes));
    TrimPad(routes[i].verb, Width(routes));
  }

  lemma RowNoNewline(rt: Route, width: nat)
    requires '\n' !in rt.verb && '\n' !in rt.pattern
    ensures '\n' !in Row(rt, width)
  {
    var p := Pad(rt.verb, width);
    forall j | 0 <= j < |p| ensures p[j] != '\n' {
      if j < |rt.verb| {
        assert p[j] == p[..|rt.verb|][j];
      }
    }
    assert Row(rt, width) == "  " + p + rt.pattern;
  }

  /** Trimming the padding gives the method back. */
  lemma TrimPad(s: String, width: nat)
    requires |s| < width
    requires |s| == 0 || !IsSpace(s[|s| - 1])
    ensures TrimEnd(Pad(s, width)) == s
  {
    var p := Pad(s, width);
    var t := TrimEnd(p);
    assert p[..|s|] == s;
    assert |s| > 0 ==> p[|s| - 1] == s[|s| - 1];
    assert |t| > 0 ==> p[|t| - 1] == t[|t| - 1];
    assert |t| == |s|;
  }
}

=== FILE: pipeline.dfy ===
/** The symbolic values route registration composes
    (future/src/main/java/io/jooby/internal/RouterImpl.java).  Filters,
    handlers, renderers and error handlers are supplied by the application or
    built by the router; their behaviour is defined outside the router, so
    each is a term here and the `then` combinators build bigger terms.  What
    the model can then check is the structure the router builds: which
    filters wrap which, in what order, around which handler. */
module Pipeline {

  import opened Wrappers

  /** Identity of an application-supplied value (a lambda, an executor). */
  type Id = nat

  /** A `Route.Filter` as the router sees it. */
  datatype Filter =
    | Decorator(id: Id)              // a plain `Route.Filter`, registered with `filter`
    | BeforeFilter(id: Id)           // a `Route.Before`, registered with `before`
    | AfterFilter(id: Id)            // a `Route.After`, registered with `after` (or `filter`)
    | GzipFilter                     // the filter `gzip(action)` seeds its frame with
    | DispatchFilter(executor: Option<Id>)  // the filter of `dispatch(action)` / `dispatch(executor, action)`
    | DetachFilter                   // the filter `detach(action)` seeds its frame with

  /** `filter instanceof Route.After`. */
  predicate IsAfter(f: Filter) {
    f.AfterFilter?
  }

  /** A `Route.Handler`; `detach(handler)` yields a `DetachedHandler`. */
  datatype Handler = UserHandler(id: Id) | DetachedHandler(inner: Handler)

  /** Filters composed with `then`: `Then(outer, inner)` is `outer.then(inner)`,
      the filter that hands `inner.apply(next)` to `outer`. */
  datatype Chain = Link(filter: Filter) | Then(outer: Chain, inner: Filter)

  /** A composed handler: a handler, a filter chain applied to a handler, or
      the handler of `detach(handler, callback)`, which runs `handler` on a
      `DetachedContext` carrying the after-chain `callback` and returns the
      context at once. */
  datatype Pipeline =
    | Call(handler: Handler)
    | Apply(chain: Chain, next: Pipeline)
    | DetachedCall(handler: Handler, callback: Chain)

  /** A `Renderer`; `RThen(head, fallback)` is `head.then(fallback)`. */
  datatype Renderer = ToString | UserRenderer(id: Id) | RThen(head: Renderer, fallback: Renderer)

  /** A `Route.ErrorHandler`; `EThen(first, second)` is `first.then(second)`. */
  datatype ErrorHandler = DefaultErrorHandler | UserErrorHandler(id: Id) | EThen(first: ErrorHandler, second: ErrorHandler)

  // ---------------------------------------------------------------------
  // Filter chains

  /** `fs.stream().skip(1).reduce(fs.get(0), then)`: a left fold. */
  function Fold(fs: seq<Filter>): (c: Chain)
    requires |fs| > 0
  {
    if |fs| == 1 then Link(fs[0]) else Then(Fold(fs[..|fs| - 1]), fs[|fs| - 1])
  }

  /** The filters of a chain from the outermost to the innermost. */
  function Members(c: Chain): (fs: seq<Filter>)
    ensures |fs| > 0
  {
    match c
    case Link(f) => [f]
    case Then(outer, inner) => Members(outer) + [inner]
  }

  /** Folding keeps every filter in declaration order, the first one outermost. */
  lemma {:induction false} MembersOfFold(fs: seq<Filter>)
    requires |fs| > 0
    ensures Members(Fold(fs)) == fs
  {
    if |fs| > 1 {
      MembersOfFold(fs[..|fs| - 1]);
    }
  }

  /** Every chain is the fold of its members: the fold builds no other shape. */
  lemma {:induction false} FoldOfMembers(c: Chain)
    ensures Fold(Members(c)) == c
  {
    match c
    case Link(f) =>
    case Then(outer, inner) =>
      var ms := Members(outer) + [inner];
      assert ms[..|ms| - 1] == Members(outer);
      FoldOfMembers(outer);
  }

  /** The filters around the core of a pipeline, outermost first. */
  function Layers(p: Pipeline): seq<Filter> {
    match p
    case Call(_) => []
    case Apply(c, next) => Members(c) + Layers(next)
    case DetachedCall(_, _) => []
  }

  /** The filter chains of a pipeline, each as its members, outermost
      first: one entry per `reduce(...).then(next)` that built it. */
  function Chains(p: Pipeline): (cs: seq<seq<Filter>>)
    ensures |cs| == 0 <==> !p.Apply?
  {
    match p
    case Apply(c, next) => [Members(c)] + Chains(next)
    case _ => []
  }

  /** What the filters of a pipeline finally wrap. */
  function Core(p: Pipeline): Pipeline
    ensures !Core(p).Apply?
  {
    match p
    case Apply(_, next) => Core(next)
    case _ => p
  }

  // ---------------------------------------------------------------------
  // Before / after partition

  /** The filters of `fs` on one side of the partition, in their order. */
  function Side(fs: seq<Filter>, after: bool): (r: seq<Filter>)
    ensures |r| <= |fs|
    ensures forall k :: 0 <= k < |r| ==> IsAfter(r[k]) == after
  {
    if |fs| == 0 then []
    else Side(fs[..|fs| - 1], after) + (if IsAfter(fs[|fs| - 1]) == after then [fs[|fs| - 1]] else [])
  }

  /** The two sides together hold every filter exactly once. */
  lemma {:induction false} SidesPartition(fs: seq<Filter>)
    ensures multiset(Side(fs, false)) + multiset(Side(fs, true)) == multiset(fs)
  {
    if |fs| > 0 {
      SidesPartition(fs[..|fs| - 1]);
      assert fs == fs[..|fs| - 1] + [fs[|fs| - 1]];
    }
  }

  /** Partitioning commutes with concatenation: the filters of an outer frame
      stay ahead of those of an inner one on both sides. */
  lemma {:induction false} SideConcat(a: seq<Filter>, b: seq<Filter>, after: bool)
    ensures Side(a + b, after) == Side(a, after) + Side(b, after)
  {
    if |b| == 0 {
      assert a + b == a;
    } else {
      assert (a + b)[..|a + b| - 1] == a + b[..|b| - 1];
      SideConcat(a, b[..|b| - 1], after);
    }
  }

  /** The loop of `route` that sends each filter to `after` iff it is a
      `Route.After`, otherwise to `before`. */
  method Partition(fs: seq<Filter>) returns (before: seq<Filter>, after: seq<Filter>)
    ensures before == Side(fs, false) && after == Side(fs, true)
    ensures |before| + |after| == |fs|
  {
    before := [];
    after := [];
    var i := 0;
    while i < |fs|
      invariant 0 <= i <= |fs|
      invariant before == Side(fs[..i], false) && after == Side(fs[..i], true)
      invariant |before| + |after| == i
    {
      assert fs[..i + 1][..i] == fs[..i];
      if IsAfter(fs[i]) {
        after := after + [fs[i]];
      } else {
        before := before + [fs[i]];
      }
      i := i + 1;
    }
    assert fs[..i] == fs;
  }

  // ---------------------------------------------------------------------
  // Composition

  /** The pipeline `route` builds from the partitioned filters and the
      handler; `detached` is the `detach` flag of the innermost frame. */
  function Compose(before: seq<Filter>, after: seq<Filter>, handler: Handler, detached: bool): (p: Pipeline)
    ensures |before| == 0 && |after| == 0 ==> p == Call(handler)
  {
    var inner :=
      if |after| > 0 then
        if detached || handler.DetachedHandler? then DetachedCall(handler, Fold(after))
        else Apply(Fold(after), Call(handler))
      else Call(handler);
    if |before| > 0 then Apply(Fold(before), inner) else inner
  }

  /** Without detaching, the before-filters wrap the after-filters, which wrap
      the handler, each group in declaration order. */
  lemma ComposeAttached(before: seq<Filter>, after: seq<Filter>, handler: Handler, detached: bool)
    requires |after| == 0 || (!detached && !handler.DetachedHandler?)
    ensures Layers(Compose(before, after, handler, detached)) == before + after
    ensures Core(Compose(before, after, handler, detached)) == Call(handler)
    ensures Chains(Compose(before, after, handler, detached))
      == (if |before| > 0 then [before] else []) + (if |after| > 0 then [after] else [])
  {
    var inner := if |after| > 0 then Apply(Fold(after), Call(handler)) else Call(handler);
    if |after| > 0 {
      MembersOfFold(after);
      assert Layers(inner) == after + [];
    }
    assert Layers(inner) == after && Core(inner) == Call(handler);
    if |before| > 0 {
      MembersOfFold(before);
      assert Compose(before, after, handler, detached) == Apply(Fold(before), inner);
    }
  }

  /** With after-filters and a detached frame or handler, only the
      before-filters wrap the core, and the after-filters become the callback
      of the detached call, in declaration order. */
  lemma ComposeDetached(before: seq<Filter>, after: seq<Filter>, handler: Handler, detached: bool)
    requires |after| > 0 && (detached || handler.DetachedHandler?)
    ensures Layers(Compose(before, after, handler, detached)) == before
    ensures Core(Compose(before, after, handler, detached)) == DetachedCall(handler, Fold(after))
    ensures Members(Core(Compose(before, after, handler, detached)).callback) == after
    ensures Chains(Compose(before, after, handler, detached)) == if |before| > 0 then [before] else []
  {
    MembersOfFold(after);
    if |before| > 0 {
      MembersOfFold(before);
    }
  }

  // ---------------------------------------------------------------------
  // Renderers

  /** `rs.stream().reduce(TO_STRING, (it, next) -> next.then(it))`. */
  function ComposeRenderers(rs: seq<Renderer>): Renderer {
    if |rs| == 0 then ToString else RThen(rs[|rs| - 1], ComposeRenderers(rs[..|rs| - 1]))
  }

  /** The renderers a composed renderer tries, in order. */
  function Attempts(r: Renderer): (rs: seq<Renderer>)
    ensures |rs| > 0 && !rs[|rs| - 1].RThen?
    ensures r.RThen? <==> |rs| > 1
  {
    match r
    case RThen(head, fallback) => [head] + Attempts(fallback)
    case _ => [r]
  }

  function Reverse<T>(s: seq<T>): (r: seq<T>)
    ensures |r| == |s|
    ensures forall k :: 0 <= k < |s| ==> r[k] == s[|s| - 1 - k]
  {
    if |s| == 0 then [] else [s[|s| - 1]] + Reverse(s[..|s| - 1])
  }

  /** The renderer registered last is tried first, and `TO_STRING` is the last resort. */
  lemma {:induction false} RendererOrder(rs: seq<Renderer>)
    ensures Attempts(ComposeRenderers(rs)) == Reverse(rs) + [ToString]
  {
    if |rs| > 0 {
      RendererOrder(rs[..|rs| - 1]);
    }
  }
}

=== FILE: router.dfy ===
/** Route registration in `RouterImpl`
    (future/src/main/java/io/jooby/internal/RouterImpl.java) as a state
    machine.  The router is a record of its fields; each registration call is
    a function from a router to a `Step`, which is the router afterwards and,
    when the call throws, the exception.  A Java router keeps whatever the
    call changed before it threw, and so does a `Threw` step.

    The `Runnable` actions of `group`, `path`, `dispatch`, `detach` and `gzip`
    are programs of registration calls (`Command`), run by `Exec`/`Run`.  A
    null action is the empty program. */
module Router {

  import opened Wrappers
  import opened Text
  import opened Pipeline
  import ErrorCodes

  /** One entry of the scope stack (the inner class `Stack`). */
  datatype Frame = Frame(pattern: String, filters: seq<Filter>, renderers: seq<Renderer>, detach: bool)

  /** What `route` registers: the `RouteImpl` it builds (`verb` is its HTTP method). */
  datatype Route = Route(verb: String, pattern: String, handler: Handler, pipeline: Pipeline, renderer: Renderer)

  /** The fields of `RouterImpl`.  `stack` is `None` once `start` has nulled
      it; `table` stands for the `$Chi` trie, keyed by (method code,
      pattern); `rootErr` records the error handler the root handler wraps.
      A null `errorCodes` map and an empty one classify alike, so the map
      starts empty. */
  datatype Router = Router(
    stack: Option<seq<Frame>>,
    routes: seq<Route>,
    table: map<(int, String), Route>,
    renderer: Renderer,
    err: Option<ErrorHandler>,
    rootErr: Option<ErrorHandler>,
    errorCodes: map<String, int>)

  /** The exceptions registration itself can throw. */
  datatype Thrown = NullPointer | IllegalArgument(message: String)

  datatype Step = Done(state: Router) | Threw(state: Router, thrown: Thrown)

  /** The constructor: one root frame with the empty pattern. */
  function Init(): (r: Router)
    ensures r.stack == Some([Frame("", [], [], false)])
    ensures r.routes == [] && r.table == map[] && r.renderer == ToString
  {
    Router(Some([Frame("", [], [], false)]), [], map[], ToString, None, None, map[])
  }

  /** While registration is open the stack holds at least the root frame. */
  predicate Valid(r: Router) {
    r.stack.Some? ==> |r.stack.value| > 0
  }

  // ---------------------------------------------------------------------
  // Method codes

  /** `Router.METHODS`, in the order of their codes. */
  const Methods: seq<String> := ["GET", "POST", "PUT", "DELETE", "PATCH", "HEAD", "OPTIONS", "CONNECT", "TRACE"]

  /** `methodCode`: the code of a known method, otherwise
      `IllegalArgumentException("Unknown method: " + method)`.  The source
      tests `PATCH` twice; the second test is unreachable. */
  function MethodCode(verb: String): (r: Result<int, Thrown>)
    ensures r.Success? <==> verb in Methods
    ensures r.Success? ==> 0 < r.value <= |Methods| && Methods[r.value - 1] == verb
  {
    match verb
    case "GET" => Success(1)
    case "POST" => Success(2)
    case "PUT" => Success(3)
    case "DELETE" => Success(4)
    case "PATCH" => Success(5)
    case "HEAD" => Success(6)
    case "OPTIONS" => Success(7)
    case "CONNECT" => Success(8)
    case "TRACE" => Success(9)
    case _ => Failure(IllegalArgument("Unknown method: " + verb))
  }

  /** Each known method has the code of its position, counted from 1. */
  lemma MethodCodeKnown(i: int)
    requires 0 <= i < |Methods|
    ensures MethodCode(Methods[i]) == Success(i + 1)
  {
    assert Methods[i] in {"GET", "POST", "PUT", "DELETE", "PATCH", "HEAD", "OPTIONS", "CONNECT", "TRACE"};
  }

  /** Every other method is rejected, and a code names its method back. */
  lemma MethodCodeExact(verb: String)
    ensures MethodCode(verb).Success? <==> verb in Methods
    ensures MethodCode(verb).Success? ==> 1 <= MethodCode(verb).value <= 9 && Methods[MethodCode(verb).value - 1] == verb
    ensures MethodCode(verb).Failure? ==> MethodCode(verb).error == IllegalArgument("Unknown method: " + verb)
  {
  }

  // ---------------------------------------------------------------------
  // Linearising the stack

  /** The patterns of the frames, outermost first. */
  function Prefix(frames: seq<Frame>): String {
    if |frames| == 0 then "" else Prefix(frames[..|frames| - 1]) + frames[|frames| - 1].pattern
  }

  /** `stack.stream().flatMap(Stack::toFilter)`. */
  function AllFilters(frames: seq<Frame>): seq<Filter> {
    if |frames| == 0 then [] else AllFilters(frames[..|frames| - 1]) + frames[|frames| - 1].filters
  }

  /** `stack.stream().flatMap(Stack::toRenderer)`. */
  function AllRenderers(frames: seq<Frame>): seq<Renderer> {
    if |frames| == 0 then [] else AllRenderers(frames[..|frames| - 1]) + frames[|frames| - 1].renderers
  }

  /** The `detach` flag of the innermost frame; false when there is none,
      which `route` never asks about because there are no filters then. */
  predicate InnermostDetached(frames: seq<Frame>) {
    |frames| > 0 && frames[|frames| - 1].detach
  }

  /** The route `route(method, pattern, handler)` builds on `frames`. */
  function BuildRoute(frames: seq<Frame>, verb: String, pattern: String, handler: Handler): (rt: Route)
    ensures rt.verb == verb && rt.handler == handler
    ensures rt.pattern == Prefix(frames) + pattern
  {
    var filters := AllFilters(frames);
    var pipeline := Compose(Side(filters, false), Side(filters, true), handler, InnermostDetached(frames));
    Route(verb, Prefix(frames) + pattern, handler, pipeline, ComposeRenderers(AllRenderers(frames)))
  }

  /** The table with `rt` inserted under each of `codes`. */
  function InsertAll(table: map<(int, String), Route>, codes: seq<int>, rt: Route): (t: map<(int, String), Route>)
    ensures forall k :: k in t <==> k in table || (k.1 == rt.pattern && k.0 in codes)
    ensures forall k :: k in t && k.1 == rt.pattern && k.0 in codes ==> t[k] == rt
    ensures forall k :: k in table && !(k.1 == rt.pattern && k.0 in codes) ==> t[k] == table[k]
  {
    if |codes| == 0 then table else InsertAll(table, codes[1..], rt)[(codes[0], rt.pattern) := rt]
  }

  const AllCodes: seq<int> := [1, 2, 3, 4, 5, 6, 7, 8, 9]

  /** The codes a route is entered under: every code for `*`, otherwise the
      code of its method (none for an unknown method, which throws). */
  function RouteCodes(verb: String): seq<int> {
    if verb == "*" then AllCodes
    else match MethodCode(verb)
      case Success(code) => [code]
      case Failure(_) => []
  }

  // ---------------------------------------------------------------------
  // Registration calls

  /** `route(method, pattern, handler)`: on success the route built from the
      current stack is appended to the routes and entered in the table under
      its method's code, or under every code for `*`; an unknown method throws
      before anything changes. */
  function RouteOp(r: Router, verb: String, pattern: String, handler: Handler): (s: Step)
    ensures r.stack.None? ==> s == Threw(r, NullPointer)
    ensures s.Threw? ==> s.state == r
    ensures s.Done? <==> r.stack.Some? && (verb == "*" || verb in Methods)
    ensures s.Done? ==> s.state.routes == r.routes + [BuildRoute(r.stack.value, verb, pattern, handler)]
    ensures s.Done? ==> s.state.stack == r.stack && s.state.errorCodes == r.errorCodes
    ensures s.Done? ==> s.state.renderer == r.renderer && s.state.err == r.err && s.state.rootErr == r.rootErr
    ensures s.Done? ==> s.state.table == InsertAll(r.table, RouteCodes(verb), BuildRoute(r.stack.value, verb, pattern, handler))
  {
    if r.stack.None? then Threw(r, NullPointer)
    else
      var rt := BuildRoute(r.stack.value, verb, pattern, handler);
      if verb == "*" then
        Done(r.(table := InsertAll(r.table, AllCodes, rt), routes := r.routes + [rt]))
      else
        MethodCodeExact(verb);
        match MethodCode(verb)
        case Failure(e) => Threw(r, e)
        case Success(code) => Done(r.(table := InsertAll(r.table, [code], rt), routes := r.routes + [rt]))
  }

  /** A registered route is found in the table under the code of its method,
      and under every code when its method is `*`. */
  lemma RouteTable(r: Router, verb: String, pattern: String, handler: Handler, code: int)
    requires RouteOp(r, verb, pattern, handler).Done?
    requires 1 <= code <= 9 && (verb == "*" || Methods[code - 1] == verb)
    ensures var s := RouteOp(r, verb, pattern, handler).state;
      var rt := BuildRoute(r.stack.value, verb, pattern, handler);
      (code, rt.pattern) in s.table && s.table[(code, rt.pattern)] == rt
  {
    CodeOfRoute(verb, code);
    InsertAllHas(r.table, RouteCodes(verb), BuildRoute(r.stack.value, verb, pattern, handler), code);
  }

  lemma CodeOfRoute(verb: String, code: int)
    requires 1 <= code <= 9 && (verb == "*" || Methods[code - 1] == verb)
    ensures code in RouteCodes(verb)
  {
    if verb != "*" {
      MethodCodeKnown(code - 1);
      assert RouteCodes(verb) == [code];
    } else {
      assert code in AllCodes;
    }
  }

  lemma InsertAllHas(table: map<(int, String), Route>, codes: seq<int>, rt: Route, code: int)
    requires code in codes
    ensures (code, rt.pattern) in InsertAll(table, codes, rt) && InsertAll(table, codes, rt)[(code, rt.pattern)] == rt
  {
    var k := (code, rt.pattern);
    assert k.1 == rt.pattern && k.0 in codes;
  }

  /** `route` leaves every other entry of the table alone: it adds only keys
      with the new route's pattern and one of its codes, and every key with
      another pattern, or with a code the method does not have, keeps its
      route. */
  lemma RouteKeepsOthers(r: Router, verb: String, pattern: String, handler: Handler, code: int)
    requires RouteOp(r, verb, pattern, handler).Done?
    requires verb != "*" && 0 < code <= |Methods| && Methods[code - 1] == verb
    ensures var s := RouteOp(r, verb, pattern, handler).state;
      var rt := BuildRoute(r.stack.value, verb, pattern, handler);
      && (forall k :: k in s.table <==> k in r.table || k == (code, rt.pattern))
      && (forall k :: k in r.table && k != (code, rt.pattern) ==> s.table[k] == r.table[k])
  {
    MethodCodeKnown(code - 1);
    assert RouteCodes(verb) == [code];
  }

  /** The stack with `f` applied to its innermost frame. */
  function UpdateLast(fs: seq<Frame>, f: Frame -> Frame): (r: seq<Frame>)
    requires |fs| > 0
    ensures |r| == |fs| && r[..|r| - 1] == fs[..|fs| - 1] && r[|r| - 1] == f(fs[|fs| - 1])
  {
    fs[..|fs| - 1] + [f(fs[|fs| - 1])]
  }

  /** `filter`, `before` and `after`: the filter joins the innermost frame
      (`peekLast` is null on an empty stack, hence the same exception). */
  function FilterOp(r: Router, f: Filter): (s: Step)
    ensures s.Threw? <==> r.stack.None? || |r.stack.value| == 0
    ensures s.Done? ==> s.state.stack.Some? && AllFilters(s.state.stack.value) == AllFilters(r.stack.value) + [f]
    ensures s.Done? ==> Prefix(s.state.stack.value) == Prefix(r.stack.value) && AllRenderers(s.state.stack.value) == AllRenderers(r.stack.value)
    ensures s.Done? ==> |s.state.stack.value| == |r.stack.value| && s.state.routes == r.routes
    ensures s.Done? ==> s.state.(stack := r.stack) == r && InnermostDetached(s.state.stack.value) == InnermostDetached(r.stack.value)
    ensures s.Threw? ==> s.state == r
  {
    if r.stack.None? || |r.stack.value| == 0 then Threw(r, NullPointer)
    else
      var fs := UpdateLast(r.stack.value, (fr: Frame) => fr.(filters := fr.filters + [f]));
      Done(r.(stack := Some(fs)))
  }

  /** `renderer`: the global renderer is extended before the innermost frame
      is, so after `start` the call throws with the global renderer extended. */
  function RendererOp(r: Router, x: Renderer): (s: Step)
    ensures s.Threw? <==> r.stack.None? || |r.stack.value| == 0
    ensures Attempts(s.state.renderer) == [x] + Attempts(r.renderer)
    ensures s.Done? ==> s.state.stack.Some? && AllRenderers(s.state.stack.value) == AllRenderers(r.stack.value) + [x]
    ensures s.Done? ==> Prefix(s.state.stack.value) == Prefix(r.stack.value) && AllFilters(s.state.stack.value) == AllFilters(r.stack.value)
    ensures s.Done? ==> |s.state.stack.value| == |r.stack.value| && s.state.routes == r.routes
    ensures s.Done? ==> s.state.(stack := r.stack, renderer := r.renderer) == r
    ensures s.Done? ==> InnermostDetached(s.state.stack.value) == InnermostDetached(r.stack.value)
    ensures s.Threw? ==> s.state.(renderer := r.renderer) == r
  {
    var r1 := r.(renderer := RThen(x, r.renderer));
    if r.stack.None? || |r.stack.value| == 0 then Threw(r1, NullPointer)
    else
      var fs := UpdateLast(r.stack.value, (fr: Frame) => fr.(renderers := fr.renderers + [x]));
      Done(r1.(stack := Some(fs)))
  }

  /** The error handlers a composed error handler runs, in order. */
  function ErrorHandlers(e: ErrorHandler): (hs: seq<ErrorHandler>)
    ensures |hs| > 0 && !hs[0].EThen?
    ensures e.EThen? <==> |hs| > 1
  {
    match e
    case EThen(first, second) => ErrorHandlers(first) + [second]
    case _ => [e]
  }

  /** `error(handler)`: the handlers registered so far run in registration order. */
  function ErrorOp(r: Router, h: ErrorHandler): (s: Step)
    ensures s.Done? && s.state.err.Some? && s.state.stack == r.stack && s.state.routes == r.routes
    ensures r.err.None? ==> s.state.err == Some(h)
    ensures r.err.Some? ==> ErrorHandlers(s.state.err.value) == ErrorHandlers(r.err.value) + [h]
    ensures s.state.(err := r.err) == r
  {
    Done(r.(err := if r.err.None? then Some(h) else Some(EThen(r.err.value, h))))
  }

  /** `errorCode(type, statusCode)`, with the class given by its canonical
      name: a later registration for the same class replaces the earlier one. */
  function ErrorCodeOp(r: Router, className: String, status: int): (s: Step)
    ensures s.Done? && s.state.stack == r.stack && s.state.routes == r.routes
    ensures className in s.state.errorCodes && s.state.errorCodes[className] == status
    ensures forall c :: c != className ==> (c in s.state.errorCodes <==> c in r.errorCodes)
    ensures forall c :: c in r.errorCodes && c != className ==> s.state.errorCodes[c] == r.errorCodes[c]
    ensures s.state.(errorCodes := r.errorCodes) == r
  {
    Done(r.(errorCodes := r.errorCodes[className := status]))
  }

  /** `start(log)`: the error handler defaults, the root handler is built
      around it, and the stack is dropped.  A second `start` throws on the
      null stack after rebuilding the root handler. */
  function Start(r: Router): (s: Step)
    ensures s.state.err.Some? && s.state.rootErr == s.state.err
    ensures r.err.Some? ==> s.state.err == r.err
    ensures r.err.None? ==> s.state.err == Some(DefaultErrorHandler)
    ensures s.state.stack.None? && s.state.routes == r.routes
    ensures s.Threw? <==> r.stack.None?
    ensures s.state.(stack := r.stack, err := r.err, rootErr := r.rootErr) == r
  {
    var e := if r.err.None? then DefaultErrorHandler else r.err.value;
    var r1 := r.(err := Some(e), rootErr := Some(e));
    if r.stack.None? then Threw(r1, NullPointer) else Done(r1.(stack := None))
  }

  // ---------------------------------------------------------------------
  // Actions

  datatype Command =
    | RouteCmd(verb: String, pattern: String, handler: Handler)
    | FilterCmd(filter: Filter)
    | RendererCmd(renderer: Renderer)
    | ErrorCmd(errorHandler: ErrorHandler)
    | ErrorCodeCmd(className: String, status: int)
    | StartCmd
    | GroupCmd(action: seq<Command>)
    | PathCmd(pattern: String, action: seq<Command>)
    | DispatchCmd(executor: Option<Id>, action: seq<Command>)
    | DetachCmd(action: seq<Command>)
    | GzipCmd(action: seq<Command>)

  /** The commands that open a scope: `group`, `path`, `dispatch`, `detach`
      (of an action) and `gzip`. */
  predicate IsGroup(c: Command) {
    c.GroupCmd? || c.PathCmd? || c.DispatchCmd? || c.DetachCmd? || c.GzipCmd?
  }

  /** The frame a scope-opening command pushes: its pattern, the filter it
      seeds the frame with, and whether it detaches. */
  function GroupFrame(c: Command): (f: Frame)
    requires IsGroup(c)
    ensures f.renderers == [] && |f.filters| <= 1
    ensures f.detach <==> c.DetachCmd?
    ensures f.pattern == (if c.PathCmd? then c.pattern else "")
  {
    match c
    case GroupCmd(_) => Frame("", [], [], false)
    case PathCmd(p, _) => Frame(p, [], [], false)
    case DispatchCmd(e, _) => Frame("", [DispatchFilter(e)], [], false)
    case DetachCmd(_) => Frame("", [DetachFilter], [], true)
    case GzipCmd(_) => Frame("", [GzipFilter], [], false)
  }

  /** Whether a step left every frame but the innermost as it was, or
      dropped the stack (`start`). */
  predicate StackKept(r: Router, s: Step) {
    s.state.stack.None? ||
    (r.stack.Some? && |s.state.stack.value| == |r.stack.value| &&
     forall i :: 0 <= i < |r.stack.value| - 1 ==> s.state.stack.value[i] == r.stack.value[i])
  }

  /** One registration call.  A call that returns keeps the stack, except
      `start`, which drops it, and a scope always restores it; no call
      forgets a route. */
  function Exec(r: Router, c: Command): (s: Step)
    ensures Valid(r) ==> Valid(s.state)
    ensures s.Done? ==> StackKept(r, s)
    ensures IsGroup(c) && s.Done? ==> s.state.stack == r.stack
    ensures r.routes <= s.state.routes
    decreases c, 0
  {
    match c
    case RouteCmd(m, p, h) => RouteOp(r, m, p, h)
    case FilterCmd(f) => FilterOp(r, f)
    case RendererCmd(x) => RendererOp(r, x)
    case ErrorCmd(h) => ErrorOp(r, h)
    case ErrorCodeCmd(n, st) => ErrorCodeOp(r, n, st)
    case StartCmd => Start(r)
    case _ => NewGroup(r, GroupFrame(c), c.action)
  }

  /** `newGroup`: push the frame, run the action, pop the frame.  Without a
      `finally`, an exception from the action leaves the frame pushed. */
  function NewGroup(r: Router, frame: Frame, action: seq<Command>): (s: Step)
    ensures Valid(r) ==> Valid(s.state)
    ensures s.Done? ==> s.state.stack == r.stack
    ensures r.routes <= s.state.routes
    decreases action, 2
  {
    if r.stack.None? then Threw(r, NullPointer)
    else
      match Run(r.(stack := Some(r.stack.value + [frame])), action)
      case Threw(r2, e) => Threw(r2, e)
      case Done(r2) =>
        if r2.stack.None? then Threw(r2, NullPointer)
        else
          assert r2.stack.value[..|r.stack.value|] == r.stack.value;
          Done(r2.(stack := Some(r2.stack.value[..|r2.stack.value| - 1])))
  }

  /** The action: its calls in order, up to the first that throws. */
  function Run(r: Router, cs: seq<Command>): (s: Step)
    ensures Valid(r) ==> Valid(s.state)
    ensures s.Done? ==> StackKept(r, s)
    ensures r.routes <= s.state.routes
    decreases cs, 1
  {
    if |cs| == 0 then Done(r)
    else
      match Exec(r, cs[0])
      case Threw(r2, e) => Threw(r2, e)
      case Done(r2) => Run(r2, cs[1..])
  }

  // ---------------------------------------------------------------------
  // Properties of registration

  /** The pattern of nested frames is the outer frames' pattern followed by
      the inner ones'. */
  lemma {:induction false} PrefixConcat(a: seq<Frame>, b: seq<Frame>)
    ensures Prefix(a + b) == Prefix(a) + Prefix(b)
  {
    if |b| == 0 {
      assert a + b == a;
    } else {
      assert (a + b)[..|a + b| - 1] == a + b[..|b| - 1];
      PrefixConcat(a, b[..|b| - 1]);
    }
  }

  /** Filters are flattened frame by frame, outer frames first. */
  lemma {:induction false} AllFiltersConcat(a: seq<Frame>, b: seq<Frame>)
    ensures AllFilters(a + b) == AllFilters(a) + AllFilters(b)
  {
    if |b| == 0 {
      assert a + b == a;
    } else {
      assert (a + b)[..|a + b| - 1] == a + b[..|b| - 1];
      AllFiltersConcat(a, b[..|b| - 1]);
    }
  }

  /** A route declared inside a scope gets the scope's pattern after the
      enclosing ones and before its own, and the filters of the scope after
      the enclosing ones, on both sides of the partition. */
  lemma ScopedRoute(r: Router, c: Command, verb: String, pattern: String, handler: Handler)
    requires IsGroup(c) && c.action == [RouteCmd(verb, pattern, handler)]
    requires r.stack.Some? && (verb == "*" || verb in Methods)
    ensures Exec(r, c).Done? && Exec(r, c).state.stack == r.stack
    ensures Exec(r, c).state.routes == r.routes + [BuildRoute(r.stack.value + [GroupFrame(c)], verb, pattern, handler)]
    ensures Exec(r, c).state.routes[|r.routes|].pattern == Prefix(r.stack.value) + GroupFrame(c).pattern + pattern
    ensures forall after :: Side(AllFilters(r.stack.value + [GroupFrame(c)]), after) ==
                           Side(AllFilters(r.stack.value), after) + Side(GroupFrame(c).filters, after)
  {
    var frames := r.stack.value + [GroupFrame(c)];
    var pushed := r.(stack := Some(frames));
    assert c.action[1..] == [];
    assert Run(pushed, c.action) == RouteOp(pushed, verb, pattern, handler);
    assert frames[..|frames| - 1] == r.stack.value;
    forall after: bool
      ensures Side(AllFilters(frames), after) == Side(AllFilters(r.stack.value), after) + Side(GroupFrame(c).filters, after)
    {
      SideConcat(AllFilters(r.stack.value), GroupFrame(c).filters, after);
    }
  }

  /** A filter registered in the current scope reaches the next route
      declared there as the last filter of its side. */
  lemma FilterReachesRoute(r: Router, f: Filter)
    requires FilterOp(r, f).Done?
    ensures var frames := FilterOp(r, f).state.stack.value;
      Side(AllFilters(frames), IsAfter(f)) == Side(AllFilters(r.stack.value), IsAfter(f)) + [f] &&
      Side(AllFilters(frames), !IsAfter(f)) == Side(AllFilters(r.stack.value), !IsAfter(f))
  {
    var frames := FilterOp(r, f).state.stack.value;
    SideConcat(AllFilters(r.stack.value), [f], IsAfter(f));
    SideConcat(AllFilters(r.stack.value), [f], !IsAfter(f));
    assert Side([f], IsAfter(f)) == [f] by {
      assert [f][..0] == [];
    }
    assert Side([f], !IsAfter(f)) == [] by {
      assert [f][..0] == [];
    }
  }

  /** Whatever a scope registered in its own frame is gone once it closes:
      the next route is built as if the scope had not been opened. */
  lemma ScopeIsolation(r: Router, c: Command, verb: String, pattern: String, handler: Handler)
    requires IsGroup(c) && Exec(r, c).Done? && r.stack.Some?
    ensures BuildRoute(Exec(r, c).state.stack.value, verb, pattern, handler) == BuildRoute(r.stack.value, verb, pattern, handler)
  {
  }

  /** The pipeline of a route: without detaching, one chain of the
      before-filters around one chain of the after-filters around the
      handler; with after-filters and a detached scope or handler, one chain
      of the before-filters around a detached call whose callback chains the
      after-filters. */
  lemma RoutePipeline(frames: seq<Frame>, verb: String, pattern: String, handler: Handler)
    ensures var rt := BuildRoute(frames, verb, pattern, handler);
      var before := Side(AllFilters(frames), false);
      var after := Side(AllFilters(frames), true);
      if |after| > 0 && (InnermostDetached(frames) || handler.DetachedHandler?) then
        Layers(rt.pipeline) == before && Core(rt.pipeline) == DetachedCall(handler, Fold(after)) &&
        Members(Fold(after)) == after &&
        Chains(rt.pipeline) == (if |before| > 0 then [before] else [])
      else
        Layers(rt.pipeline) == before + after && Core(rt.pipeline) == Call(handler) &&
        Chains(rt.pipeline) == (if |before| > 0 then [before] else []) + (if |after| > 0 then [after] else [])
  {
    var before := Side(AllFilters(frames), false);
    var after := Side(AllFilters(frames), true);
    if |after| > 0 && (InnermostDetached(frames) || handler.DetachedHandler?) {
      ComposeDetached(before, after, handler, InnermostDetached(frames));
    } else {
      ComposeAttached(before, after, handler, InnermostDetached(frames));
    }
  }

  /** The renderer of a route tries the renderers of its scopes latest first,
      then `TO_STRING`. */
  lemma RouteRenderer(frames: seq<Frame>, verb: String, pattern: String, handler: Handler)
    ensures Attempts(BuildRoute(frames, verb, pattern, handler).renderer) == Reverse(AllRenderers(frames)) + [ToString]
  {
    RendererOrder(AllRenderers(frames));
  }

  /** The root error handler classifies with the router's registrations:
      registering a status for a failure's own class decides its status,
      whatever was registered for that class before. */
  lemma RegisteredStatusDecides(r: Router, x: ErrorCodes.Failure, status: int)
    requires !ErrorCodes.IsErr(x) && |x.classes| > 0
    ensures ErrorCodes.ErrorCode(x, ErrorCodeOp(r, x.classes[0], status).state.errorCodes) == status
  {
    ErrorCodes.RegisteredOwnClass(x, r.errorCodes, status);
  }
}

=== FILE: router_match.dfy ===
/** The result of matching a request against the routes
    (jooby/src/main/java/io/jooby/internal/RouterMatch.java): the path
    variables the matcher captures, the route it found or the synthetic route
    of a miss, and the execution of that route's pipeline. */
module RouterMatch {

  import opened Wrappers
  import opened Text

  /** A key of the raw `vars` map: the matcher first binds values under their
      position (an `Integer`), `key` then renames them (a `String`). */
  datatype VarKey = Pos(index: int) | Name(name: String)

  /** A binding; `None` is a null value, which `key` stores when it renames a
      position that holds nothing. */
  type Entry = (VarKey, Option<String>)

  /** `vars`: the shared `Collections.EMPTY_MAP`, or a `LinkedHashMap` as its
      entries in insertion order. */
  datatype Vars = SharedEmpty | Linked(entries: seq<Entry>)

  /** The handlers of a miss. */
  datatype MissHandler = MethodNotAllowedHandler | FaviconHandler | NotFoundHandler

  /** The route of a match: one the router found (opaque here), or the
      synthetic route `missing` builds from the request. */
  datatype MatchedRoute =
    | FoundRoute(id: nat)
    | MissingRoute(verb: String, path: String, handler: MissHandler, renderer: nat)

  datatype Match = Match(matches: bool, route: Option<MatchedRoute>, vars: Vars, handler: Option<MissHandler>)

  /** What `java.util.Collections.EMPTY_MAP` throws on `put`. */
  datatype MatchFailure = UnsupportedOperation

  /** A fresh match: no route, nothing captured, not matched. */
  function Fresh(): (m: Match)
    ensures !m.matches && m.route.None? && m.vars == SharedEmpty && m.handler.None?
  {
    Match(false, None, SharedEmpty, None)
  }

  // ---------------------------------------------------------------------
  // The insertion-ordered map

  function Bindings(v: Vars): seq<Entry> {
    if v.SharedEmpty? then [] else v.entries
  }

  /** Where `k` is bound, or -1. */
  function Find(entries: seq<Entry>, k: VarKey): (i: int)
    ensures -1 <= i < |entries|
    ensures i >= 0 ==> entries[i].0 == k && forall j :: 0 <= j < i ==> entries[j].0 != k
    ensures i < 0 <==> forall j :: 0 <= j < |entries| ==> entries[j].0 != k
  {
    if |entries| == 0 then -1
    else if entries[|entries| - 1].0 == k && Find(entries[..|entries| - 1], k) < 0 then |entries| - 1
    else Find(entries[..|entries| - 1], k)
  }

  predicate UniqueKeys(entries: seq<Entry>) {
    forall i, j :: 0 <= i < j < |entries| ==> entries[i].0 != entries[j].0
  }

  /** `put`: a bound key keeps its place and takes the new value, a new key
      goes last. */
  function Put(entries: seq<Entry>, k: VarKey, v: Option<String>): (r: seq<Entry>)
    ensures Find(entries, k) >= 0 ==> |r| == |entries| && r == entries[Find(entries, k) := (k, v)]
    ensures Find(entries, k) < 0 ==> r == entries + [(k, v)]
    ensures UniqueKeys(entries) ==> UniqueKeys(r)
  {
    var i := Find(entries, k);
    if i >= 0 then entries[i := (k, v)] else entries + [(k, v)]
  }

  /** `remove`: the entries without `k`, and the value it had, null when it
      had none. */
  function Remove(entries: seq<Entry>, k: VarKey): (r: (seq<Entry>, Option<String>))
    ensures Find(entries, k) < 0 ==> r == (entries, None)
    ensures Find(entries, k) >= 0 ==>
      r.0 == entries[..Find(entries, k)] + entries[Find(entries, k) + 1..] && r.1 == entries[Find(entries, k)].1
    ensures UniqueKeys(entries) ==> UniqueKeys(r.0) && Find(r.0, k) < 0
  {
    var i := Find(entries, k);
    if i < 0 then (entries, None) else (entries[..i] + entries[i + 1..], entries[i].1)
  }

  // ---------------------------------------------------------------------
  // Capturing

  /** `value(v)`: the shared empty map is replaced by a fresh one on first use,
      then `v` is bound to the position equal to the current size. */
  function Value(m: Match, v: String): (r: Match)
    ensures r.vars.Linked?
    ensures Find(Bindings(m.vars), Pos(|Bindings(m.vars)|)) < 0 ==> Bindings(r.vars) == Bindings(m.vars) + [(Pos(|Bindings(m.vars)|), Some(v))]
    ensures r.matches == m.matches && r.route == m.route && r.handler == m.handler
  {
    var entries := Bindings(m.vars);
    m.(vars := Linked(Put(entries, Pos(|entries|), Some(v))))
  }

  /** `pop()`: removes the position one below the size; on the shared empty
      map `remove` finds nothing and changes nothing. */
  function Pop(m: Match): (r: Match)
    ensures m.vars.SharedEmpty? ==> r == m
    ensures r.matches == m.matches && r.route == m.route && r.handler == m.handler
  {
    if m.vars.SharedEmpty? then m
    else m.(vars := Linked(Remove(m.vars.entries, Pos(|m.vars.entries| - 1)).0))
  }

  /** Capturing a value and popping it gives back the bindings there were,
      unless the position `value` writes to was already bound. */
  lemma ValuePop(m: Match, v: String)
    requires Find(Bindings(m.vars), Pos(|Bindings(m.vars)|)) < 0
    ensures Bindings(Pop(Value(m, v)).vars) == Bindings(m.vars)
  {
    var e := Bindings(m.vars);
    var e2 := e + [(Pos(|e|), Some(v))];
    assert Bindings(Value(m, v).vars) == e2;
    assert Find(e2, Pos(|e|)) == |e|;
    assert e2[..|e|] == e;
  }

  /** The bindings as the matcher leaves them: position `i` at index `i`. */
  predicate Positional(entries: seq<Entry>) {
    forall i :: 0 <= i < |entries| ==> entries[i].0 == Pos(i)
  }

  /** On positional bindings `value` appends at the next position. */
  lemma ValueStep(m: Match, v: String)
    requires Positional(Bindings(m.vars))
    ensures Bindings(Value(m, v).vars) == Bindings(m.vars) + [(Pos(|Bindings(m.vars)|), Some(v))]
    ensures Positional(Bindings(Value(m, v).vars))
  {
    var e := Bindings(m.vars);
    assert Find(e, Pos(|e|)) < 0 by {
      forall j | 0 <= j < |e| ensures e[j].0 != Pos(|e|) {
        assert e[j].0 == Pos(j);
      }
    }
  }

  /** `r` keeps the bindings `e` and binds the values `vs` after them, at
      the next positions in order. */
  predicate BoundAfter(e: seq<Entry>, r: seq<Entry>, vs: seq<String>) {
    && Positional(r)
    && |r| == |e| + |vs|
    && r[..|e|] == e
    && forall k :: 0 <= k < |vs| ==> r[|e| + k].1 == Some(vs[k])
  }

  /** Capturing values one after another binds them to the next positions
      in order, keeping what was bound. */
  lemma {:induction false} ValuesPositional(m: Match, vs: seq<String>)
    requires Positional(Bindings(m.vars))
    ensures BoundAfter(Bindings(m.vars), Bindings(Values(m, vs).vars), vs)
    decreases |vs|
  {
    if |vs| > 0 {
      var m1 := Value(m, vs[0]);
      ValueStep(m, vs[0]);
      ValuesPositional(m1, vs[1..]);
      assert Values(m, vs) == Values(m1, vs[1..]);
      CapturedAfter(Bindings(m.vars), Bindings(m1.vars), Bindings(Values(m, vs).vars), vs);
    } else {
      assert Bindings(Values(m, vs).vars)[..|Bindings(m.vars)|] == Bindings(m.vars);
    }
  }

  /** The sequence step of `ValuesPositional`: one value bound at the next
      position, then the rest bound after it. */
  lemma CapturedAfter(e: seq<Entry>, e1: seq<Entry>, r: seq<Entry>, vs: seq<String>)
    requires |vs| > 0 && e1 == e + [(Pos(|e|), Some(vs[0]))]
    requires BoundAfter(e1, r, vs[1..])
    ensures BoundAfter(e, r, vs)
  {
    assert r[..|e|] == e1[..|e|];
    forall k | 0 <= k < |vs| ensures r[|e| + k].1 == Some(vs[k]) {
      if k == 0 {
        assert r[|e|] == e1[|e|];
      } else {
        assert r[|e1| + (k - 1)].1 == Some(vs[1..][k - 1]);
      }
    }
  }

  function Values(m: Match, vs: seq<String>): Match
    decreases |vs|
  {
    if |vs| == 0 then m else Values(Value(m, vs[0]), vs[1..])
  }

  /** The named bindings `key` produces from positional ones. */
  function Renamed(entries: seq<Entry>, names: seq<String>, n: nat): (r: seq<Entry>)
    requires n <= |entries| && n <= |names|
    ensures |r| == n
    ensures forall j :: 0 <= j < n ==> r[j] == (Name(names[j]), entries[j].1)
  {
    seq(n, j requires 0 <= j < n => (Name(names[j]), entries[j].1))
  }

  predicate DistinctNames(names: seq<String>) {
    forall i, j :: 0 <= i < j < |names| ==> names[i] != names[j]
  }

  /** `key(keys)`: each position `i` in turn is removed and its value bound
      to `keys[i]`.  On the shared empty map the first `put` throws.  With as
      many distinct names as positional bindings, the result binds the names
      in declaration order to the captured values. */
  method Rename(m: Match, keys: seq<String>) returns (r: Result<Match, MatchFailure>)
    ensures m.vars.SharedEmpty? ==> (r.Failure? <==> |keys| > 0)
    ensures r.Success? ==> r.value.matches == m.matches && r.value.route == m.route && r.value.handler == m.handler
    ensures m.vars.SharedEmpty? && |keys| == 0 ==> r == Success(m)
    ensures m.vars.Linked? ==> r.Success?
    ensures m.vars.Linked? && Positional(m.vars.entries) && |keys| == |m.vars.entries| && DistinctNames(keys) ==>
      r.Success? && r.value.vars == Linked(Renamed(m.vars.entries, keys, |keys|))
  {
    if m.vars.SharedEmpty? {
      if |keys| > 0 {
        return Failure(UnsupportedOperation);
      }
      return Success(m);
    }
    var orig := m.vars.entries;
    var simple := Positional(orig) && |keys| == |orig| && DistinctNames(keys);
    var entries := orig;
    var i := 0;
    while i < |keys|
      invariant 0 <= i <= |keys|
      invariant simple ==> entries == orig[i..] + Renamed(orig, keys, i)
    {
      var removed := Remove(entries, Pos(i));
      if simple {
        RenameStep(orig, keys, i, entries);
      }
      entries := Put(removed.0, Name(keys[i]), removed.1);
      i := i + 1;
    }
    if simple {
      assert orig[i..] == [];
      assert entries == Renamed(orig, keys, |keys|);
    }
    return Success(m.(vars := Linked(entries)));
  }

  /** One turn of the renaming loop. */
  lemma RenameStep(orig: seq<Entry>, keys: seq<String>, i: int, entries: seq<Entry>)
    requires Positional(orig) && |keys| == |orig| && DistinctNames(keys)
    requires 0 <= i < |keys| && entries == orig[i..] + Renamed(orig, keys, i)
    ensures var removed := Remove(entries, Pos(i));
      Put(removed.0, Name(keys[i]), removed.1) == orig[i + 1..] + Renamed(orig, keys, i + 1)
  {
    RemoveFront(orig, keys, i, entries);
    var rest := orig[i + 1..] + Renamed(orig, keys, i);
    NameFresh(orig, keys, i, rest);
    RenamedSnoc(orig, keys, i);
  }

  lemma RenamedSnoc(entries: seq<Entry>, names: seq<String>, n: nat)
    requires n < |entries| && n < |names|
    ensures Renamed(entries, names, n + 1) == Renamed(entries, names, n) + [(Name(names[n]), entries[n].1)]
  {
  }

  /** The position the turn removes is the first entry. */
  lemma RemoveFront(orig: seq<Entry>, keys: seq<String>, i: int, entries: seq<Entry>)
    requires Positional(orig) && |keys| == |orig|
    requires 0 <= i < |keys| && entries == orig[i..] + Renamed(orig, keys, i)
    ensures Remove(entries, Pos(i)) == (orig[i + 1..] + Renamed(orig, keys, i), orig[i].1)
  {
    assert entries[0] == orig[i];
    assert Find(entries, Pos(i)) == 0;
    assert entries[..0] + entries[1..] == orig[i + 1..] + Renamed(orig, keys, i);
  }

  /** The name the turn binds is not bound yet. */
  lemma NameFresh(orig: seq<Entry>, keys: seq<String>, i: int, rest: seq<Entry>)
    requires Positional(orig) && |keys| == |orig| && DistinctNames(keys)
    requires 0 <= i < |keys| && rest == orig[i + 1..] + Renamed(orig, keys, i)
    ensures Find(rest, Name(keys[i])) < 0
  {
    forall j | 0 <= j < |rest| ensures rest[j].0 != Name(keys[i]) {
      if j < |orig| - i - 1 {
        assert rest[j] == orig[i + 1 + j];
      } else {
        assert rest[j] == Renamed(orig, keys, i)[j - (|orig| - i - 1)];
      }
    }
  }

  // ---------------------------------------------------------------------
  // Outcome

  /** `methodNotAllowed()`: a later miss is answered with 405. */
  function MethodNotAllowed(m: Match): (r: Match)
    ensures r.handler == Some(MethodNotAllowedHandler)
    ensures r.matches == m.matches && r.route == m.route && r.vars == m.vars
  {
    m.(handler := Some(MethodNotAllowedHandler))
  }

  /** `found(route)`. */
  function Found(m: Match, id: nat): (r: Match)
    ensures r.matches && r.route == Some(FoundRoute(id))
    ensures r.vars == m.vars && r.handler == m.handler
  {
    m.(route := Some(FoundRoute(id)), matches := true)
  }

  /** `missing(method, path, renderer)`: the synthetic route for the request,
      answered by the method-not-allowed handler when one was set, otherwise
      by the favicon handler for a favicon path and by not-found for the rest. */
  function Missing(m: Match, verb: String, path: String, renderer: nat): (r: Match)
    ensures r.route.Some? && r.route.value.MissingRoute?
    ensures r.route.value.verb == verb && r.route.value.path == path && r.route.value.renderer == renderer
    ensures r.matches == m.matches && r.vars == m.vars && r.handler == m.handler
  {
    var h :=
      if m.handler.Some? then m.handler.value
      else if EndsWith(path, "/favicon.ico") then FaviconHandler
      else NotFoundHandler;
    m.(route := Some(MissingRoute(verb, path, h, renderer)))
  }

  /** The handler of a miss: 405 whenever the method was not allowed,
      whatever the path; otherwise favicon exactly for favicon paths. */
  lemma MissPrecedence(m: Match, verb: String, path: String, renderer: nat)
    requires m.handler.None? || m.handler == Some(MethodNotAllowedHandler)
    ensures var h := Missing(m, verb, path, renderer).route.value.handler;
      (h == MethodNotAllowedHandler <==> m.handler.Some?) &&
      (h == FaviconHandler <==> m.handler.None? && EndsWith(path, "/favicon.ico")) &&
      (h == NotFoundHandler <==> m.handler.None? && !EndsWith(path, "/favicon.ico"))
  {
  }

  /** A match is matched exactly when `found` was called, whatever else
      happened since it was fresh. */
  datatype MatchCall =
    | ValueCall(v: String) | PopCall | MethodNotAllowedCall
    | FoundCall(id: nat) | MissingCall(verb: String, path: String, renderer: nat)

  function Apply(m: Match, calls: seq<MatchCall>): Match {
    if |calls| == 0 then m
    else
      var c := calls[|calls| - 1];
      var m0 := Apply(m, calls[..|calls| - 1]);
      match c
      case ValueCall(v) => Value(m0, v)
      case PopCall => Pop(m0)
      case MethodNotAllowedCall => MethodNotAllowed(m0)
      case FoundCall(id) => Found(m0, id)
      case MissingCall(verb, path, renderer) => Missing(m0, verb, path, renderer)
  }

  lemma {:induction false} MatchedIffFound(calls: seq<MatchCall>)
    ensures Apply(Fresh(), calls).matches <==> exists k :: 0 <= k < |calls| && calls[k].FoundCall?
  {
    if |calls| > 0 {
      var init := calls[..|calls| - 1];
      MatchedIffFound(init);
      assert forall k :: 0 <= k < |init| ==> init[k] == calls[k];
    }
  }

  // ---------------------------------------------------------------------
  // Execution

  /** What a route's pipeline can throw: the exception of a null route, or
      whatever the application throws. */
  datatype Thrown = NullRoute | Raised(id: nat)

  /** What `execute` does to the context, in order. */
  datatype Effect =
    | SetPathMap(bindings: seq<Entry>)
    | SetRoute(route: Option<MatchedRoute>)
    | SendError(thrown: Thrown)

  /** `execute(context)`: the path map and the route are set on the context,
      then the pipeline runs; `pipeline` says what it throws, if anything.
      Whatever it throws is caught and sent once; nothing escapes. */
  function Execute(m: Match, pipeline: MatchedRoute -> Option<Thrown>): (effects: seq<Effect>)
    ensures 2 <= |effects| <= 3
    ensures effects[0] == SetPathMap(Bindings(m.vars)) && effects[1] == SetRoute(m.route)
    ensures |effects| == 3 <==> m.route.None? || pipeline(m.route.value).Some?
    ensures |effects| == 3 ==> effects[2] == SendError(if m.route.None? then NullRoute else pipeline(m.route.value).value)
  {
    var prefix := [SetPathMap(Bindings(m.vars)), SetRoute(m.route)];
    if m.route.None? then prefix + [SendError(NullRoute)]
    else match pipeline(m.route.value)
      case None => prefix
      case Some(x) => prefix + [SendError(x)]
  }

  function CountErrors(effects: seq<Effect>): nat {
    if |effects| == 0 then 0
    else CountErrors(effects[..|effects| - 1]) + (if effects[|effects| - 1].SendError? then 1 else 0)
  }

  /** At most one error is sent per execution, and one exactly when the
      pipeline could not complete. */
  lemma ErrorSentOnce(m: Match, pipeline: MatchedRoute -> Option<Thrown>)
    ensures CountErrors(Execute(m, pipeline)) <= 1
    ensures CountErrors(Execute(m, pipeline)) == 1 <==> m.route.None? || pipeline(m.route.value).Some?
  {
    var e := Execute(m, pipeline);
    assert e[..1][..0] == e[..0] && e[..2][..1] == e[..1];
    assert CountErrors(e[..1]) == 0;
    assert CountErrors(e[..2]) == 0;
    if |e| == 3 {
      assert e[..|e| - 1] == e[..2];
    } else {
      assert e == e[..2];
    }
  }
}

=== FILE: text.dfy ===
/** Character-level helpers with the meaning of the `java.lang.String` methods
    the modelled code calls (`indexOf`, `endsWith`, `replace`, `substring`). */
module Text {

  type String = seq<char>

  /** `s.indexOf(c)`: the first position of `c` in `s`, or -1. */
  function IndexOf(s: String, c: char): (r: int)
    ensures -1 <= r < |s|
    ensures r == -1 <==> c !in s
    ensures 0 <= r ==> s[r] == c && c !in s[..r]
  {
    if |s| == 0 then -1
    else if s[0] == c then 0
    else
      var k := IndexOf(s[1..], c);
      assert s[1..][..if k < 0 then 0 else k] == s[1..if k < 0 then 1 else k + 1];
      if k < 0 then -1 else k + 1
  }

  /** `s.endsWith(suffix)`. */
  predicate EndsWith(s: String, suffix: String) {
    |suffix| <= |s| && s[|s| - |suffix|..] == suffix
  }

  /** `s.replace(from, to)` for single characters. */
  function Replace(s: String, from: char, to: char): (r: String)
    ensures |r| == |s|
    ensures forall i :: 0 <= i < |s| ==> r[i] == (if s[i] == from then to else s[i])
    ensures from != to ==> from !in r
  {
    seq(|s|, i requires 0 <= i < |s| => if s[i] == from then to else s[i])
  }

  /** `n` copies of the character `c`. */
  function Repeat(c: char, n: nat): (r: String)
    ensures |r| == n
    ensures forall i :: 0 <= i < n ==> r[i] == c
  {
    seq(n, _ => c)
  }

  /** The characters of the `\s` class of `java.util.regex`. */
  predicate IsSpace(c: char) {
    c == ' ' || c == '\t' || c == '\n' || c == '\U{B}' || c == '\U{C}' || c == '\r'
  }

  /** Drops the leading `\s*` of `s`. */
  function TrimStart(s: String): (r: String)
    ensures |r| <= |s| && r == s[|s| - |r|..]
    ensures forall i :: 0 <= i < |s| - |r| ==> IsSpace(s[i])
    ensures |r| > 0 ==> !IsSpace(r[0])
  {
    if |s| > 0 && IsSpace(s[0]) then TrimStart(s[1..]) else s
  }

  /** Drops the trailing `\s*` of `s`. */
  function TrimEnd(s: String): (r: String)
    ensures |r| <= |s| && r == s[..|r|]
    ensures forall i :: |r| <= i < |s| ==> IsSpace(s[i])
    ensures |r| > 0 ==> !IsSpace(r[|r| - 1])
  {
    if |s| > 0 && IsSpace(s[|s| - 1]) then TrimEnd(s[..|s| - 1]) else s
  }

  /** `parts` joined with the separator `sep` in between. */
  function Join(parts: seq<String>, sep: String): String {
    if |parts| == 0 then []
    else if |parts| == 1 then parts[0]
    else parts[0] + sep + Join(parts[1..], sep)
  }

  /** The number of occurrences of `c` in `s`. */
  function CountChar(s: String, c: char): nat {
    if |s| == 0 then 0 else CountChar(s[..|s| - 1], c) + (if s[|s| - 1] == c then 1 else 0)
  }

  lemma {:induction false} CountCharAppend(a: String, b: String, c: char)
    ensures CountChar(a + b, c) == CountChar(a, c) + CountChar(b, c)
  {
    if |b| == 0 {
      assert a + b == a;
    } else {
      assert (a + b)[..|a + b| - 1] == a + b[..|b| - 1];
      CountCharAppend(a, b[..|b| - 1], c);
    }
  }

  lemma {:induction false} CountCharAbsent(s: String, c: char)
    requires c !in s
    ensures CountChar(s, c) == 0
  {
    if |s| > 0 {
      CountCharAbsent(s[..|s| - 1], c);
    }
  }

  lemma ReplaceAppend(a: String, b: String, from: char, to: char)
    ensures Replace(a + b, from, to) == Replace(a, from, to) + Replace(b, from, to)
  {
  }

  lemma ReplaceAbsent(s: String, from: char, to: char)
    requires from !in s
    ensures Replace(s, from, to) == s
  {
  }

  /** The text between consecutive occurrences of `sep`: one part more than
      there are separators, as `split` with a literal separator and a negative
      limit gives them. */
  function Split(s: String, sep: char): (r: seq<String>)
    ensures |r| >= 1
    ensures forall k :: 0 <= k < |r| ==> sep !in r[k]
    ensures Join(r, [sep]) == s
  {
    var i := IndexOf(s, sep);
    if i < 0 then [s]
    else
      var rest := Split(s[i + 1..], sep);
      assert s == s[..i] + [sep] + s[i + 1..];
      [s[..i]] + rest
  }

  /** Splitting at a separator the parts do not contain gives the parts back. */
  lemma {:induction false} SplitJoin(parts: seq<String>, sep: char)
    requires |parts| >= 1
    requires forall k :: 0 <= k < |parts| ==> sep !in parts[k]
    ensures Split(Join(parts, [sep]), sep) == parts
  {
    if |parts| == 1 {
      assert IndexOf(parts[0], sep) < 0;
    } else {
      var s := Join(parts, [sep]);
      assert s == parts[0] + [sep] + Join(parts[1..], [sep]);
      assert s[|parts[0]|] == sep;
      assert s[..|parts[0]|] == parts[0];
      assert IndexOf(s, sep) == |parts[0]|;
      assert s[|parts[0]| + 1..] == Join(parts[1..], [sep]);
      SplitJoin(parts[1..], sep);
    }
  }
}

=== FILE: type_definition.dfy ===
/** The type helper of the annotation processor
    (modules/jooby-apt/src/main/java/io/jooby/internal/apt/TypeDefinition.java):
    it turns a source type name into an ASM `Type`, matches a type against a
    type name and type-argument names, and computes the binary name of a nested
    class.  The `javax.lang.model` types and elements are replaced by plain
    trees, and ASM's `Type` by a datatype that records either a primitive sort
    or the internal name given to `Type.getObjectType`. */
module TypeDefinition {
  import opened Wrappers
  import opened Text

  // ---------------------------------------------------------------------
  // JVM types

  /** The primitive JVM types. */
  datatype Primitive = Byte | Int | Long | Float | Double | Boolean | Void | Short | Char

  /** The Java keyword naming each primitive type. */
  function PrimitiveName(p: Primitive): String {
    match p
    case Byte => "byte"
    case Int => "int"
    case Long => "long"
    case Float => "float"
    case Double => "double"
    case Boolean => "boolean"
    case Void => "void"
    case Short => "short"
    case Char => "char"
  }

  /** The BaseType character of each primitive (section 4.3.2 of the Java
      Virtual Machine Specification; `V` for void is its VoidDescriptor). */
  function DescriptorChar(p: Primitive): char {
    match p
    case Byte => 'B'
    case Int => 'I'
    case Long => 'J'
    case Float => 'F'
    case Double => 'D'
    case Boolean => 'Z'
    case Void => 'V'
    case Short => 'S'
    case Char => 'C'
  }

  /** An ASM `Type`: one of the primitive sorts, or the object or array type
      whose internal name (an array descriptor for arrays, section 4.2.1 and
      4.3.2 of the Java Virtual Machine Specification) is given.  Two ASM types
      are equal exactly when their sort and descriptor are, which this
      representation makes structural equality. */
  datatype AsmType = PrimitiveType(primitive: Primitive) | ObjectType(internalName: String)

  /** The primitive whose keyword is `name`, if any. */
  function PrimitiveNamed(name: String): (r: Option<Primitive>)
    ensures r.Some? ==> PrimitiveName(r.value) == name
    ensures r.None? ==> forall p: Primitive :: PrimitiveName(p) != name
  {
    if name == "byte" then Some(Byte)
    else if name == "int" then Some(Int)
    else if name == "long" then Some(Long)
    else if name == "float" then Some(Float)
    else if name == "double" then Some(Double)
    else if name == "boolean" then Some(Boolean)
    else if name == "void" then Some(Void)
    else if name == "short" then Some(Short)
    else if name == "char" then Some(Char)
    else None
  }

  /** The element name and the number of `[]` pairs stripped from the end of
      `name` by the `while (type.endsWith("[]"))` loop. */
  function StripDims(name: String): (r: (String, nat))
    ensures name == r.0 + Dims(r.1)
    ensures !EndsWith(r.0, "[]")
    decreases |name|
  {
    if EndsWith(name, "[]") then
      var inner := StripDims(name[..|name| - 2]);
      assert name == name[..|name| - 2] + "[]";
      DimsSnoc(inner.1);
      (inner.0, inner.1 + 1)
    else
      (name, 0)
  }

  /** `k` copies of `[]`. */
  function Dims(k: nat): (r: String)
    ensures |r| == 2 * k
  {
    if k == 0 then [] else "[]" + Dims(k - 1)
  }

  lemma {:induction false} DimsSnoc(k: nat)
    ensures Dims(k + 1) == Dims(k) + "[]"
  {
    if k > 0 {
      DimsSnoc(k - 1);
    }
  }

  /** The internal name the default branch hands to `getObjectType`. */
  function DefaultInternalName(name: String): String {
    var stripped := StripDims(name);
    ArrayOf(stripped.0, stripped.1)
  }

  /** `prefix + type.replace(".", "/") + postfix`: one `[` per dimension and,
      for arrays, `L` before and `;` after the element's internal name. */
  function ArrayOf(element: String, dims: nat): String {
    if dims > 0 then Repeat('[', dims) + ("L" + Replace(element, '.', '/') + ";")
    else Replace(element, '.', '/')
  }

  /** The shape of an internal name built by the default branch: no `.`, and
      for an array a `[` per dimension, then `L`, the element with `/` for
      `.`, and `;`. */
  lemma ArrayOfShape(element: String, dims: nat)
    ensures var r := ArrayOf(element, dims);
      && '.' !in r
      && (dims == 0 ==> |r| == |element|)
      && (dims > 0 ==>
            && |r| == dims + |element| + 2 && LeadingBrackets(r) == dims
            && r[dims] == 'L' && r[|r| - 1] == ';' && r[dims + 1..|r| - 1] == Replace(element, '.', '/'))
  {
    var body := Replace(element, '.', '/');
    LeadingBracketsOf(dims, "L" + body + ";");
    var r := ArrayOf(element, dims);
    if dims > 0 {
      assert r[dims..] == "L" + body + ";";
      assert r[dims + 1..|r| - 1] == body;
    }
  }

  /** `asmType(type)`: the switch over the primitive names, the one-dimensional
      primitive arrays and `java.lang.String[]`, then the default branch. */
  function AsmTypeOf(name: String): (r: AsmType)
    ensures r.PrimitiveType? <==> PrimitiveNamed(name).Some?
    ensures r.PrimitiveType? ==> PrimitiveName(r.primitive) == name
  {
    match name
    case "byte" => PrimitiveType(Byte)
    case "byte[]" => ObjectType("[B")
    case "int" => PrimitiveType(Int)
    case "int[]" => ObjectType("[I")
    case "long" => PrimitiveType(Long)
    case "long[]" => ObjectType("[J")
    case "float" => PrimitiveType(Float)
    case "float[]" => ObjectType("[F")
    case "double" => PrimitiveType(Double)
    case "double[]" => ObjectType("[D")
    case "boolean" => PrimitiveType(Boolean)
    case "boolean[]" => ObjectType("[Z")
    case "void" => PrimitiveType(Void)
    case "short" => PrimitiveType(Short)
    case "short[]" => ObjectType("[S")
    case "char" => PrimitiveType(Char)
    case "char[]" => ObjectType("[C")
    case "java.lang.String" => ObjectType("java/lang/String")
    case "java.lang.String[]" => ObjectType("[Ljava/lang/String;")
    case _ => ObjectType(DefaultInternalName(name))
  }

  /** The primitive `p` when `name` is `p[]` for a primitive other than void. */
  function PrimitiveArrayNamed(name: String): (r: Option<Primitive>)
    ensures r.Some? ==> r.value != Void && name == PrimitiveName(r.value) + "[]"
  {
    if EndsWith(name, "[]") then
      var p := PrimitiveNamed(name[..|name| - 2]);
      if p.Some? && p.value != Void then
        assert name == name[..|name| - 2] + "[]";
        p
      else None
    else None
  }

  // ---------------------------------------------------------------------
  // Reading a JVM type back as a source type name

  /** The number of leading `[` of an internal name: the array dimensions. */
  function LeadingBrackets(s: String): (r: nat)
    ensures r <= |s|
    ensures forall i :: 0 <= i < r ==> s[i] == '['
    ensures r < |s| ==> s[r] != '['
  {
    if |s| > 0 && s[0] == '[' then 1 + LeadingBrackets(s[1..]) else 0
  }

  /** The primitive whose descriptor character is `c`, if any. */
  function PrimitiveWithDescriptor(c: char): (r: Option<Primitive>)
    ensures r.Some? ==> DescriptorChar(r.value) == c
    ensures r.None? ==> forall p: Primitive :: DescriptorChar(p) != c
  {
    if c == 'B' then Some(Byte)
    else if c == 'I' then Some(Int)
    else if c == 'J' then Some(Long)
    else if c == 'F' then Some(Float)
    else if c == 'D' then Some(Double)
    else if c == 'Z' then Some(Boolean)
    else if c == 'V' then Some(Void)
    else if c == 'S' then Some(Short)
    else if c == 'C' then Some(Char)
    else None
  }

  /** The source type name an ASM type stands for: the inverse reading of
      sections 4.2.1 and 4.3.2 of the Java Virtual Machine Specification
      (a `[` per dimension, then a BaseType character or `L` ClassName `;`,
      with `/` read back as `.`). */
  function SourceName(t: AsmType): String {
    match t
    case PrimitiveType(p) => PrimitiveName(p)
    case ObjectType(s) =>
      var k := LeadingBrackets(s);
      var rest := s[k..];
      if k == 0 then Replace(s, '/', '.')
      else if |rest| == 1 && PrimitiveWithDescriptor(rest[0]).Some? then
        PrimitiveName(PrimitiveWithDescriptor(rest[0]).value) + Dims(k)
      else if |rest| >= 2 && rest[0] == 'L' && rest[|rest| - 1] == ';' then
        Replace(rest[1..|rest| - 1], '/', '.') + Dims(k)
      else s
  }

  /** A source type name as the annotation processor sees one: it uses `.` as
      package separator, never `/`, and does not start with `[`. */
  predicate SourceTypeName(name: String) {
    '/' !in name && (|name| > 0 ==> name[0] != '[')
  }

  lemma ReplaceBack(e: String)
    requires '/' !in e
    ensures Replace(Replace(e, '.', '/'), '/', '.') == e
  {
    var r := Replace(e, '.', '/');
    var b := Replace(r, '/', '.');
    forall i | 0 <= i < |e| ensures b[i] == e[i] {
      assert e[i] != '/';
    }
  }

  lemma {:induction false} LeadingBracketsOf(k: nat, rest: String)
    requires |rest| > 0 && rest[0] != '['
    ensures LeadingBrackets(Repeat('[', k) + rest) == k
    ensures (Repeat('[', k) + rest)[k..] == rest
  {
    if k > 0 {
      assert (Repeat('[', k) + rest)[1..] == Repeat('[', k - 1) + rest;
      LeadingBracketsOf(k - 1, rest);
    }
  }

  lemma ArrayOfRoundTrip(element: String, dims: nat)
    requires '/' !in element
    requires dims == 0 && |element| > 0 ==> element[0] != '['
    ensures SourceName(ObjectType(ArrayOf(element, dims))) == element + Dims(dims)
  {
    ReplaceBack(element);
    var body := Replace(element, '.', '/');
    var s := ArrayOf(element, dims);
    if dims > 0 {
      var rest := "L" + body + ";";
      LeadingBracketsOf(dims, rest);
      assert rest[1..|rest| - 1] == body;
    } else {
      assert s == body;
      assert |s| > 0 ==> s[0] != '[';
      assert LeadingBrackets(s) == 0;
      assert element + Dims(0) == element;
    }
  }

  /** The default branch is read back as the name it came from. */
  lemma DefaultRoundTrip(name: String)
    requires SourceTypeName(name)
    ensures SourceName(ObjectType(DefaultInternalName(name))) == name
  {
    var stripped := StripDims(name);
    assert '/' !in stripped.0 by {
      assert forall c :: c in stripped.0 ==> c in name;
    }
    if stripped.1 == 0 {
      assert stripped.0 == name;
    }
    ArrayOfRoundTrip(stripped.0, stripped.1);
  }

  lemma PrimitiveArrayRoundTrip(p: Primitive)
    ensures SourceName(ObjectType(['[', DescriptorChar(p)])) == PrimitiveName(p) + "[]"
  {
    LeadingBracketsOf(1, [DescriptorChar(p)]);
    assert Repeat('[', 1) == "[";
    assert Dims(1) == "[]";
  }

  /** The primitive keywords map to the primitive JVM types. */
  lemma AsmTypeOfPrimitive(p: Primitive)
    ensures AsmTypeOf(PrimitiveName(p)) == PrimitiveType(p)
  {
    match p
    case Byte => case Int => case Long => case Float => case Double =>
    case Boolean => case Void => case Short => case Char =>
  }

  /** The one-dimensional primitive arrays map to the array type whose
      descriptor is `[` and the element's BaseType character. */
  lemma AsmTypeOfPrimitiveArray(p: Primitive)
    requires p != Void
    ensures AsmTypeOf(PrimitiveName(p) + "[]") == ObjectType(['[', DescriptorChar(p)])
  {
    match p
    case Byte => assert "byte" + "[]" == "byte[]";
    case Int => assert "int" + "[]" == "int[]";
    case Long => assert "long" + "[]" == "long[]";
    case Float => assert "float" + "[]" == "float[]";
    case Double => assert "double" + "[]" == "double[]";
    case Boolean => assert "boolean" + "[]" == "boolean[]";
    case Short => assert "short" + "[]" == "short[]";
    case Char => assert "char" + "[]" == "char[]";
  }

  /** Every name outside the table takes the default branch; the two `String`
      entries of the table give what the default branch would give too. */
  lemma AsmTypeOfOther(name: String)
    requires PrimitiveNamed(name).None? && PrimitiveArrayNamed(name).None?
    ensures AsmTypeOf(name) == ObjectType(DefaultInternalName(name))
  {
    if name == "java.lang.String" {
      StringCase(name);
    } else if name == "java.lang.String[]" {
      StringArrayCase(name);
    } else {
      NotTableArray(name);
      DefaultBranch(name);
    }
  }

  lemma StringCase(name: String)
    requires name == "java.lang.String"
    ensures AsmTypeOf(name) == ObjectType(DefaultInternalName(name))
  {
    StringTable(name);
    StringEntry(name);
  }

  lemma StringTable(name: String)
    requires name == "java.lang.String"
    ensures AsmTypeOf(name) == ObjectType("java/lang/String")
  {
  }

  lemma StringArrayCase(name: String)
    requires name == "java.lang.String[]"
    ensures AsmTypeOf(name) == ObjectType(DefaultInternalName(name))
  {
    StringArrayTable(name);
    StringArrayEntry(name);
  }

  lemma StringArrayTable(name: String)
    requires name == "java.lang.String[]"
    ensures AsmTypeOf(name) == ObjectType("[Ljava/lang/String;")
  {
  }

  lemma PrimitiveNamedName(p: Primitive)
    ensures PrimitiveNamed(PrimitiveName(p)) == Some(p)
  {
    match p
    case Byte => case Int => case Long => case Float => case Double =>
    case Boolean => case Void => case Short => case Char =>
  }

  /** The names the switch lists as one-dimensional primitive arrays. */
  lemma TableArray(p: Primitive)
    requires p != Void
    ensures PrimitiveArrayNamed(PrimitiveName(p) + "[]") == Some(p)
  {
    var name := PrimitiveName(p) + "[]";
    assert name[..|name| - 2] == PrimitiveName(p);
    PrimitiveNamedName(p);
  }

  lemma NotTableArray(name: String)
    requires PrimitiveArrayNamed(name).None?
    ensures name != "byte[]" && name != "int[]" && name != "long[]" && name != "float[]"
    ensures name != "double[]" && name != "boolean[]" && name != "short[]" && name != "char[]"
  {
    TableArray(Byte);
    assert PrimitiveName(Byte) + "[]" == "byte[]";
    TableArray(Int);
    assert PrimitiveName(Int) + "[]" == "int[]";
    TableArray(Long);
    assert PrimitiveName(Long) + "[]" == "long[]";
    TableArray(Float);
    assert PrimitiveName(Float) + "[]" == "float[]";
    TableArray(Double);
    assert PrimitiveName(Double) + "[]" == "double[]";
    TableArray(Boolean);
    assert PrimitiveName(Boolean) + "[]" == "boolean[]";
    TableArray(Short);
    assert PrimitiveName(Short) + "[]" == "short[]";
    TableArray(Char);
    assert PrimitiveName(Char) + "[]" == "char[]";
  }

  /** A name that is none of the switch's labels reaches the default branch. */
  lemma DefaultBranch(name: String)
    requires name != "java.lang.String[]" && name != "java.lang.String"
    requires name != "byte[]" && name != "int[]" && name != "long[]" && name != "float[]"
    requires name != "double[]" && name != "boolean[]" && name != "short[]" && name != "char[]"
    requires PrimitiveNamed(name).None?
    ensures AsmTypeOf(name) == ObjectType(DefaultInternalName(name))
  {
  }

  /** The `java.lang.String` entry of the table is what the default branch gives. */
  lemma StringEntry(name: String)
    requires name == "java.lang.String"
    ensures DefaultInternalName(name) == "java/lang/String"
  {
    assert !EndsWith(name, "[]") by {
      assert name[|name| - 1] == 'g';
    }
    StripDimsOf(name, 0);
    assert name + Dims(0) == name;
    assert Replace(name, '.', '/') == "java/lang/String";
  }

  /** Stripping the `[]` pairs of an element name that has none of its own. */
  lemma {:induction false} StripDimsOf(element: String, k: nat)
    requires !EndsWith(element, "[]")
    ensures StripDims(element + Dims(k)) == (element, k)
  {
    if k == 0 {
      assert element + Dims(0) == element;
    } else {
      var name := element + Dims(k);
      DimsSnoc(k - 1);
      assert name == (element + Dims(k - 1)) + "[]";
      assert name[..|name| - 2] == element + Dims(k - 1);
      StripDimsOf(element, k - 1);
    }
  }

  /** The default branch on an element name with `k` dimensions. */
  lemma DefaultOf(element: String, k: nat)
    requires !EndsWith(element, "[]") && k > 0
    ensures DefaultInternalName(element + Dims(k)) == ArrayOf(element, k)
  {
    StripDimsOf(element, k);
  }

  lemma ClassArrayDefault(e: String, name: String)
    requires e == "java.lang.String" && name == e + "[]"
    ensures DefaultInternalName(name) == ArrayOf(e, 1)
  {
    assert name == e + Dims(1) by {
      assert Dims(1) == "[]";
    }
    assert !EndsWith(e, "[]") by {
      assert e[|e| - 1] == 'g';
    }
    DefaultOf(e, 1);
  }

  lemma ClassArrayInternalName(e: String)
    requires e == "java.lang.String"
    ensures ArrayOf(e, 1) == "[Ljava/lang/String;"
  {
    ArrayOfUnfold(e, 1);
    StringInternalBody(e);
    assert Repeat('[', 1) == "[";
    StringDescriptorLiteral();
  }

  lemma StringDescriptorLiteral()
    ensures "[" + ("L" + "java/lang/String" + ";") == "[Ljava/lang/String;"
  {
  }

  lemma StringInternalBody(e: String)
    requires e == "java.lang.String"
    ensures Replace(e, '.', '/') == "java/lang/String"
  {
  }

  lemma ArrayOfUnfold(element: String, k: nat)
    requires k > 0
    ensures ArrayOf(element, k) == Repeat('[', k) + ("L" + Replace(element, '.', '/') + ";")
  {
  }

  /** The `java.lang.String[]` entry of the table is what the default branch gives. */
  lemma StringArrayEntry(name: String)
    requires name == "java.lang.String[]"
    ensures DefaultInternalName(name) == "[Ljava/lang/String;"
  {
    var e := "java.lang.String";
    assert name == e + "[]";
    ClassArrayDefault(e, name);
    ClassArrayInternalName(e);
  }

  /** `asmType` loses nothing: every source type name is read back from the
      JVM type it is mapped to, so distinct names never share a JVM type. */
  lemma AsmTypeRoundTrip(name: String)
    requires SourceTypeName(name)
    ensures SourceName(AsmTypeOf(name)) == name
  {
    if PrimitiveNamed(name).Some? {
      AsmTypeOfPrimitive(PrimitiveNamed(name).value);
    } else if PrimitiveArrayNamed(name).Some? {
      AsmTypeOfPrimitiveArray(PrimitiveArrayNamed(name).value);
      PrimitiveArrayRoundTrip(PrimitiveArrayNamed(name).value);
    } else {
      AsmTypeOfOther(name);
      DefaultRoundTrip(name);
    }
  }

  // ---------------------------------------------------------------------
  // Multi-dimensional primitive arrays

  /** An array descriptor whose element is the type the source named.  The
      grammar of section 4.3.2 of the Java Virtual Machine Specification puts
      a BaseType character, or `L`, a class name and `;`, after the `[`s.  On
      top of that grammar the model adds its own rule: the class name is not
      a primitive keyword.  A keyword cannot name a class (section 3.9 of the
      Java Language Specification), so `Lint;` names a class called `int`
      rather than the primitive `int`. */
  predicate WellFormedArray(t: AsmType) {
    t.ObjectType? && LeadingBrackets(t.internalName) > 0 ==>
      var s := t.internalName;
      var rest := s[LeadingBrackets(s)..];
      (|rest| == 1 && PrimitiveWithDescriptor(rest[0]).Some? && rest[0] != 'V')
      || (|rest| > 2 && rest[0] == 'L' && rest[|rest| - 1] == ';'
          && PrimitiveNamed(rest[1..|rest| - 1]).None?)
  }

  lemma IntMatrixDefault(e: String, name: String)
    requires e == "int" && name == e + "[][]"
    ensures DefaultInternalName(name) == ArrayOf(e, 2)
  {
    assert name == e + Dims(2) by {
      assert Dims(2) == "[][]";
    }
    assert !EndsWith(e, "[]");
    DefaultOf(e, 2);
  }

  lemma IntMatrixInternalName(e: String)
    requires e == "int"
    ensures ArrayOf(e, 2) == "[[Lint;"
  {
    ArrayOfUnfold(e, 2);
    assert Replace(e, '.', '/') == "int";
    assert Repeat('[', 2) == "[[";
  }

  /** As written, `asmType("int[][]")` falls into the default branch and names a
      class `int`: the descriptor is `[[Lint;` instead of `[[I`. */
  lemma MultiDimPrimitiveArrayAsWritten(name: String)
    requires name == "int[][]"
    ensures AsmTypeOf(name) == ObjectType("[[Lint;")
    ensures !WellFormedArray(AsmTypeOf(name))
  {
    var e := "int";
    assert name == e + "[][]";
    IntMatrixDefault(e, name);
    IntMatrixInternalName(e);
    DefaultBranch(name);
    IntMatrixIllFormed("[[Lint;");
  }

  lemma IntMatrixIllFormed(s: String)
    requires s == "[[Lint;"
    ensures !WellFormedArray(ObjectType(s))
  {
    assert LeadingBrackets(s) == 2 by {
      LeadingBracketsOf(2, "Lint;");
    }
    assert s[2..][1..|s[2..]| - 1] == "int";
  }

  /** `asmType` as evidently intended: a primitive array of any dimension gets
      the BaseType character of its element. */
  function JvmTypeOf(name: String): AsmType {
    var stripped := StripDims(name);
    var p := PrimitiveNamed(stripped.0);
    if stripped.1 > 1 && p.Some? && p.value != Void then
      ObjectType(Repeat('[', stripped.1) + [DescriptorChar(p.value)])
    else AsmTypeOf(name)
  }

  /** A source type name whose element is a type, and not `void` when it is an array. */
  predicate ElementTypeName(name: String) {
    var stripped := StripDims(name);
    SourceTypeName(name) && |stripped.0| > 0 && (stripped.1 > 0 ==> stripped.0 != "void")
  }

  lemma ReplacedKeyword(e: String)
    requires PrimitiveNamed(Replace(e, '.', '/')).Some?
    ensures Replace(e, '.', '/') == e
  {
    var r := Replace(e, '.', '/');
    assert '/' !in r by {
      var p := PrimitiveNamed(r).value;
      match p
      case Byte => case Int => case Long => case Float => case Double =>
      case Boolean => case Void => case Short => case Char =>
    }
    forall i | 0 <= i < |e| ensures r[i] == e[i] {
      assert r[i] != '/';
    }
  }

  lemma PrimitiveArrayWellFormed(p: Primitive)
    requires p != Void
    ensures WellFormedArray(ObjectType(['[', DescriptorChar(p)]))
  {
    LeadingBracketsOf(1, [DescriptorChar(p)]);
    assert ['[', DescriptorChar(p)] == Repeat('[', 1) + [DescriptorChar(p)];
  }

  lemma PrimitiveMultiArrayWellFormed(p: Primitive, k: nat)
    requires p != Void && k > 0
    ensures WellFormedArray(ObjectType(Repeat('[', k) + [DescriptorChar(p)]))
  {
    LeadingBracketsOf(k, [DescriptorChar(p)]);
    match p
    case Byte => case Int => case Long => case Float => case Double =>
    case Boolean => case Short => case Char =>
  }

  /** An array element named by a primitive keyword is either in the table
      or handled by the corrected mapping. */
  lemma KeywordElement(name: String)
    requires ElementTypeName(name) && StripDims(name).1 > 0
    requires PrimitiveArrayNamed(name).None?
    requires PrimitiveNamed(StripDims(name).0).Some?
    ensures StripDims(name).1 > 1 && PrimitiveNamed(StripDims(name).0).value != Void
  {
    var stripped := StripDims(name);
    var q := PrimitiveNamed(stripped.0).value;
    if stripped.1 == 1 {
      assert false;
    }
  }

  /** The default branch names a class for an array element, and that class
      is never a primitive keyword unless the element is a primitive of a
      multi-dimensional array. */
  lemma DefaultWellFormed(name: String)
    requires ElementTypeName(name) && PrimitiveArrayNamed(name).None?
    requires !(StripDims(name).1 > 1 && PrimitiveNamed(StripDims(name).0).Some? && PrimitiveNamed(StripDims(name).0).value != Void)
    ensures WellFormedArray(ObjectType(DefaultInternalName(name)))
  {
    var stripped := StripDims(name);
    ArrayOfShape(stripped.0, stripped.1);
    if stripped.1 > 0 {
      var s := DefaultInternalName(name);
      var rest := s[stripped.1..];
      assert rest[1..|rest| - 1] == Replace(stripped.0, '.', '/');
      if PrimitiveNamed(Replace(stripped.0, '.', '/')).Some? {
        ReplacedKeyword(stripped.0);
        KeywordElement(name);
        assert false;
      }
    }
  }

  /** The corrected mapping only produces well-formed array descriptors. */
  lemma JvmTypeWellFormed(name: String)
    requires ElementTypeName(name)
    ensures WellFormedArray(JvmTypeOf(name))
  {
    var stripped := StripDims(name);
    var p := PrimitiveNamed(stripped.0);
    if stripped.1 > 1 && p.Some? && p.value != Void {
      PrimitiveMultiArrayWellFormed(p.value, stripped.1);
    } else if PrimitiveNamed(name).Some? {
      AsmTypeOfPrimitive(PrimitiveNamed(name).value);
    } else if PrimitiveArrayNamed(name).Some? {
      AsmTypeOfPrimitiveArray(PrimitiveArrayNamed(name).value);
      PrimitiveArrayWellFormed(PrimitiveArrayNamed(name).value);
    } else {
      AsmTypeOfOther(name);
      DefaultWellFormed(name);
    }
  }

  /** The corrected mapping is as readable as the original one. */
  lemma DescriptorCharBack(p: Primitive)
    requires p != Void
    ensures PrimitiveWithDescriptor(DescriptorChar(p)) == Some(p)
  {
    match p
    case Byte => case Int => case Long => case Float => case Double =>
    case Boolean => case Short => case Char =>
  }

  lemma JvmTypeRoundTrip(name: String)
    requires SourceTypeName(name)
    ensures SourceName(JvmTypeOf(name)) == name
  {
    var stripped := StripDims(name);
    var p := PrimitiveNamed(stripped.0);
    if stripped.1 > 1 && p.Some? && p.value != Void {
      var c := DescriptorChar(p.value);
      LeadingBracketsOf(stripped.1, [c]);
      DescriptorCharBack(p.value);
    } else {
      AsmTypeRoundTrip(name);
    }
  }

  // ---------------------------------------------------------------------
  // Matching a type against type names: `is` and `equalType`

  /** The kinds of `javax.lang.model.element.ElementKind` the model distinguishes. */
  datatype ElementKind = ClassKind | EnumKind | InterfaceKind | AnnotationKind | RecordKind
                       | TypeParameterKind | PackageKind | OtherKind

  /** A `TypeMirror` as `is` and `equalType` observe it: the text of its erasure
      (unchanged by `unwrapType`), the kind of the element `Types.asElement`
      gives for it (`None` when that is null, as for primitive and array
      types), whether it is a `DeclaredType`, and its type arguments. */
  datatype TypeMirror = TypeMirror(erasure: String, element: Option<ElementKind>, declared: bool, arguments: seq<TypeMirror>)

  /** The only exception `equalType` can raise: asking for the kind of a null element. */
  datatype Thrown = NullPointerException

  const EnumClassName: String := "java.lang.Enum"

  /** `equalType(type, typeName)`: the erasure is named `typeName`, or
      `typeName` is `java.lang.Enum` and the type's element is an enum. */
  function EqualType(t: TypeMirror, typeName: String): (r: Result<bool, Thrown>)
    ensures r.Failure? <==> t.erasure != typeName && typeName == EnumClassName && t.element.None?
    ensures r == Success(true) <==>
              || t.erasure == typeName
              || (typeName == EnumClassName && t.element == Some(EnumKind))
  {
    if t.erasure != typeName then
      if typeName == EnumClassName then
        if t.element.None? then Failure(NullPointerException)
        else Success(t.element.value == EnumKind)
      else Success(false)
    else Success(true)
  }

  /** Every type argument matches the name at its position. */
  predicate AllArgumentsMatch(arguments: seq<TypeMirror>, names: seq<String>)
    requires |arguments| == |names|
  {
    forall i :: 0 <= i < |names| ==> EqualType(arguments[i], names[i]) == Success(true)
  }

  /** `is(type, arguments...)`: the loop of the source, stopping at the first
      argument that does not match and propagating the exception of
      `equalType`. */
  method Is(t: TypeMirror, typeName: String, names: seq<String>) returns (r: Result<bool, Thrown>)
    ensures EqualType(t, typeName).Failure? ==> r.Failure?
    ensures EqualType(t, typeName) == Success(false) ==> r == Success(false)
    ensures EqualType(t, typeName) == Success(true) && (|names| == 0 || !t.declared) ==> r == Success(true)
    ensures (EqualType(t, typeName) == Success(true) && |names| > 0 && t.declared && |t.arguments| != |names|)
      ==> r == Success(false)
    ensures (EqualType(t, typeName) == Success(true) && |names| > 0 && t.declared && |t.arguments| == |names|)
      ==> (r == Success(true) <==> AllArgumentsMatch(t.arguments, names))
    ensures r.Failure? ==> EqualType(t, typeName).Failure? || exists i :: 0 <= i < |names| && i < |t.arguments| && EqualType(t.arguments[i], names[i]).Failure?
  {
    var head := EqualType(t, typeName);
    if head.Failure? {
      return head;
    }
    if !head.value {
      return Success(false);
    }
    if |names| > 0 && t.declared {
      var args := t.arguments;
      if |args| != |names| {
        return Success(false);
      }
      var i := 0;
      while i < |names|
        invariant 0 <= i <= |names|
        invariant forall j :: 0 <= j < i ==> EqualType(args[j], names[j]) == Success(true)
      {
        var e := EqualType(args[i], names[i]);
        if e.Failure? {
          return e;
        }
        if !e.value {
          return Success(false);
        }
        i := i + 1;
      }
    }
    return Success(true);
  }

  // ---------------------------------------------------------------------
  // Binary names of nested classes: `getName(Element)`

  /** An `Element` as `getName` observes it: its kind, its simple name, its
      `toString()` (the qualified name for a type element) and its enclosing
      element (`None` when null). */
  datatype Element = Element(kind: ElementKind, simpleName: String, text: String, enclosing: Option<Element>)

  /** The element sits directly inside a class (and not an interface, enum or record). */
  predicate InClass(e: Element) {
    e.enclosing.Some? && e.enclosing.value.kind == ClassKind
  }

  /** `getName(element)`: the enclosing class's name, `$` and the simple name,
      recursively while the enclosing element is a class; otherwise the
      element's own `toString()`. */
  function GetName(e: Element): (r: String)
    ensures InClass(e) ==> EndsWith(r, "$" + e.simpleName)
    ensures !InClass(e) ==> r == e.text
  {
    if InClass(e) then GetName(e.enclosing.value) + "$" + e.simpleName else e.text
  }

  /** The number of classes the element is nested in, counted outwards until an
      enclosing element that is not a class. */
  function ClassDepth(e: Element): nat {
    if InClass(e) then 1 + ClassDepth(e.enclosing.value) else 0
  }

  /** No `$` in the simple names along the class nesting nor in the outermost name. */
  predicate DollarFree(e: Element) {
    if InClass(e) then '$' !in e.simpleName && DollarFree(e.enclosing.value) else '$' !in e.text
  }

  /** One `$` per level of class nesting: the name is the outermost name
      followed by the `$`-prefixed simple names. */
  lemma {:induction false} DollarPerNesting(e: Element)
    requires DollarFree(e)
    ensures CountChar(GetName(e), '$') == ClassDepth(e)
  {
    if InClass(e) {
      var p := e.enclosing.value;
      DollarPerNesting(p);
      CountCharAppend(GetName(p), "$", '$');
      CountCharAppend(GetName(p) + "$", e.simpleName, '$');
      CountCharAbsent(e.simpleName, '$');
      assert CountChar("$", '$') == 1 by {
        assert "$"[..0] == [];
      }
    } else {
      CountCharAbsent(e.text, '$');
    }
  }

  /** Walking the enclosing chain outwards and prepending each simple name
      gives the same name as the recursion. */
  method BinaryName(e: Element) returns (name: String)
    ensures name == GetName(e)
  {
    var current := e;
    var suffix: String := [];
    while InClass(current)
      invariant GetName(e) == GetName(current) + suffix
      decreases current
    {
      suffix := "$" + current.simpleName + suffix;
      current := current.enclosing.value;
    }
    name := current.text + suffix;
  }
}

=== FILE: wrappers.dfy ===
/** Failure-compatible wrappers shared by the model: `Option` stands for a Java
    reference that may be null, `Result` for a computation that may throw. */
module Wrappers {

  datatype Option<+T> = None | Some(value: T) {

    /** Returns the value, or `default` when there is none. */
    function GetOr(default: T): T {
      match this
      case Some(v) => v
      case None => default
    }
  }

  datatype Result<+R, +E> = Success(value: R) | Failure(error: E) {

    predicate IsFailure() {
      Failure?
    }

    function PropagateFailure<U>(): Result<U, E>
      requires Failure?
    {
      Failure(error)
    }

    function Extract(): R
      requires Success?
    {
      value
    }
  }
}
